=== FILE: README.md ===
# apm-core utilities in Dafny

A model of the deterministic core of the apm-core Android utility library.
Each Android or library object becomes a value, and every external capability
becomes a parameter:
- the ZXing Code 128 writer;
- JPEG compression;
- bitmap decoding;
- the date parser;
- the media roots;
- the clock's timestamp.

The model covers:

- **BarcodeGenerator**. One generation request:
  - the encoder call (Code 128 at 512 x 256);
  - the rasteriser that paints the 512 x 256 grid black and white;
  - the three output modes (bitmap, JPEG bytes, Base64 of those bytes);
  - the listener notifications of `onPreExecute`/`onPostExecute`, as an event trace;
  - the `Builder`.
- **HashUtils.GetKeyHashFromSHA1**. It does three things:
  - `split(":")` with Java's dropping of trailing empty segments;
  - `Integer.decode("0x" + segment).byteValue()` per segment, with its `NumberFormatException`;
  - Base64 without line breaks.
- **Base64**, following section 4 of RFC 4648. It is shared by the key hash and the barcode text mode, and comes with its decoder.
- **FileUtils**:
  - `GetFilePathNameExt`, with its quirks;
  - the extension `SaveImageBytes`/`SaveImageBitmap` choose for a compress format;
  - the directory and name `CreateMediaFile` gives a new media file.
- **StringUtils**:
  - `CheckStringLength`;
  - `CompareEquals`;
  - `IsEmailValid`, as a hand-written recogniser of `^[\w\.-]+@([\w\-]+\.)+[A-Z]{2,4}$` under `CASE_INSENSITIVE`, proved equal to the pattern's language.
- **DateUtils**. The three `GetDaysBetweenTwoDates` overloads:
  - the `long` difference, which wraps;
  - `TimeUnit.convert` from milliseconds, which truncates toward zero or saturates;
  - the `(int)` cast.
- **BitmapUtils**:
  - the sample size `Math.min(photoW / targetW, photoH / targetH)` in Java `int` arithmetic, with its `ArithmeticException`;
  - the six `GetScaled*` entry points around it;
  - `GetImageSize(Bitmap)`.
- **AnimateUtils**. The visibility state machine (`VISIBLE`, `INVISIBLE`, `GONE`) driven by the listeners of `AnimateView`, `ScaleIn`, `ScaleOut`, `FadeIn`, `FadeOut` and `TranslateView`.

Supporting modules:
- `Wrappers`: `Option` and `Result`.
- `Integers`: Java `int`/`long` ranges, wrap-around and truncating division.
- `Strings`: `indexOf`, `lastIndexOf`, `split`, `replace` and the ASCII character classes.

How the generator reports failures:
- A null background result is reported as `WriterException("Cannot convert barcode.")`.
- Otherwise the only failure reported is the encoder's own `WriterException`, passed on unchanged.

## Model

| member | source | states |
|---|---|---|
| Strings.LastIndexOf | core/src/main/java/com/apm/core/utils/FileUtils.java:349-351 | the result is -1 exactly when the character is absent; otherwise it is a position holding the character with none after it |
| Strings.DropTrailingEmpty | core/src/main/java/com/apm/core/utils/HashUtils.java:27 | the result is a prefix of the pieces that ends in a non-empty piece (or is empty), and every piece it drops is empty |
| Strings.Split | core/src/main/java/com/apm/core/utils/HashUtils.java:27 | no segment of `split` contains the separator |
| Strings.PiecesJoin | core/src/main/java/com/apm/core/utils/HashUtils.java:27 | cutting at every separator undoes joining separator-free pieces |
| Strings.SplitJoin | core/src/main/java/com/apm/core/utils/HashUtils.java:27 | `split` gives back the joined segments when the last one is not empty |
| Strings.Replace | core/src/main/java/com/apm/core/utils/FileUtils.java:352 | replacing the target by itself, or replacing in a string where the target never occurs, leaves the string unchanged |
| Strings.ReplaceSkips | core/src/main/java/com/apm/core/utils/FileUtils.java:352 | a prefix at none of whose positions the target starts passes through `replace` unchanged, even when it holds the target's first character |
| Strings.ReplaceMiss | core/src/main/java/com/apm/core/utils/FileUtils.java:352 | a character where no occurrence of the target starts is copied and the scan moves on by one |
| Strings.FirstCharAbsent | core/src/main/java/com/apm/core/utils/FileUtils.java:352 | the target cannot start inside a prefix that lacks its first character |
| Strings.ReplaceLeading | core/src/main/java/com/apm/core/utils/FileUtils.java:352 | a target at the front is replaced, and the scan resumes after it |
| Strings.RemoveTrailing | core/src/main/java/com/apm/core/utils/FileUtils.java:352 | removing a target that occurs only at the end leaves exactly what precedes it |
| Integers.ToInt | core/src/main/java/com/apm/core/utils/DateUtils.java:54 | the `(int)` cast is congruent to its argument modulo 2^32, lies in the `int` range, and is the identity there |
| Integers.ToLong | core/src/main/java/com/apm/core/utils/DateUtils.java:53 | `long` subtraction wraps modulo 2^64 into the `long` range, and is the identity there |
| Integers.Quot | core/src/main/java/com/apm/core/utils/BitmapUtils.java:122 | Java `/` agrees with floor division for non-negative operands and is 0 when the dividend is below the divisor |
| Integers.QuotTruncates | core/src/main/java/com/apm/core/utils/BitmapUtils.java:122 | Java `/` by a positive divisor rounds toward zero: the magnitude is the number of whole divisors, and the sign is the dividend's |
| Integers.QuotShrinks | core/src/main/java/com/apm/core/utils/DateUtils.java:54 | dividing by a positive divisor never increases the magnitude |
| Integers.QuotNeg | core/src/main/java/com/apm/core/utils/DateUtils.java:54 | Java `/` commutes with negating the dividend |
| Base64.Char | core/src/main/java/com/apm/core/utils/HashUtils.java:34 | each 6-bit value maps to an alphabet character that maps back to it (Table 1 of RFC 4648) |
| Base64.EncodeTriple | core/src/main/java/com/apm/core/utils/HashUtils.java:34 | three bytes become four alphabet characters without padding |
| Base64.Encode | core/src/main/java/com/apm/core/utils/HashUtils.java:34 | n bytes encode to 4·⌈n/3⌉ characters: alphabet characters followed by exactly the padding the last group needs |
| Base64.EncodeFinal | core/src/main/java/com/apm/core/utils/HashUtils.java:34 | a final group of one or two bytes becomes four characters ending in two or one '=' |
| Base64.Padding | core/src/main/java/com/apm/core/utils/HashUtils.java:34 | there are at most two '=', and never more than the encoding's length |
| Base64.TripleRoundTrip | core/src/main/java/com/apm/core/utils/HashUtils.java:34 | a group of three bytes decodes back to the same bytes |
| Base64.OneByteRoundTrip | core/src/main/java/com/apm/core/utils/HashUtils.java:34 | one byte with its two '=' decodes back to that byte |
| Base64.TwoBytesRoundTrip | core/src/main/java/com/apm/core/utils/HashUtils.java:34 | two bytes with their one '=' decode back to those bytes |
| Base64.DecodeEncode | core/src/main/java/com/apm/core/utils/HashUtils.java:34 | decoding undoes encoding for every byte sequence |
| Base64.EncodeDecode | core/src/main/java/com/apm/core/utils/HashUtils.java:34 | every text that decodes is the encoding of what it decodes to, so each byte sequence has exactly one Base64 text (the canonical encoding of section 3.5 of RFC 4648) |
| Base64.QuadCanonical | core/src/main/java/com/apm/core/utils/HashUtils.java:34 | a full group of four characters is the encoding of the three bytes it decodes to |
| Base64.LastCanonical | core/src/main/java/com/apm/core/utils/HashUtils.java:34 | a final group decodes only when its unused bits are zero, and is then the encoding of what it decodes to |
| Base64.CharValue | core/src/main/java/com/apm/core/utils/HashUtils.java:34 | Table 1 of RFC 4648 is a bijection: each alphabet character is the character of its value |
| Base64.SextetsOfBytes | core/src/main/java/com/apm/core/utils/HashUtils.java:34 | regrouping four 6-bit values into three bytes and back gives the same values |
| Base64.Sha1Length | core/src/main/java/com/apm/core/utils/HashUtils.java:34 | a 20-byte digest encodes to 28 characters ending in exactly one '=' |
| HashUtils.HexValue | core/src/main/java/com/apm/core/utils/HashUtils.java:31 | the value of k hexadecimal digits is below 16^k |
| HashUtils.DecodeSegment | core/src/main/java/com/apm/core/utils/HashUtils.java:31 | `Integer.decode("0x" + s)` succeeds exactly for a non-empty all-hex segment of value at most `Integer.MAX_VALUE`; otherwise it throws `NumberFormatException`. The model's exception records which segment failed; Java's message shows the segment except for a leading sign |
| HashUtils.LowByte | core/src/main/java/com/apm/core/utils/HashUtils.java:31 | `byteValue()` keeps the value modulo 256, and leaves a value already in 0..255 as it is |
| HashUtils.DecodeAll | core/src/main/java/com/apm/core/utils/HashUtils.java:28-32 | there is one byte per segment, in order, each being the low eight bits; on failure the reported segment is the first that fails |
| HashUtils.KeyHashFromSha1 | core/src/main/java/com/apm/core/utils/HashUtils.java:24-35 | success exactly when every `split` segment decodes; the output has 4·⌈n/3⌉ characters and decodes to the segments' low bytes in order, which by Base64.EncodeDecode makes it exactly their canonical Base64; otherwise the first failing segment's exception is raised |
| HashUtils.HexValueIgnoresCase | core/src/main/java/com/apm/core/utils/HashUtils.java:31 | upper-casing hexadecimal digits keeps them digits of the same value |
| HashUtils.DecodeSegmentIgnoresCase | core/src/main/java/com/apm/core/utils/HashUtils.java:31 | "ef" and "EF" decode alike: same success and same value |
| HashUtils.KeyHashOfFingerprint | core/src/main/java/com/apm/core/utils/HashUtils.java:20-34 | a fingerprint printed as colon-separated hex pairs, in either case, yields the Base64 of the digest |
| HashUtils.DecodePairs | core/src/main/java/com/apm/core/utils/HashUtils.java:30-32 | segments that decode to the bytes of a digest decode, all together, to that digest |
| HashUtils.Sha1KeyHashShape | core/src/main/java/com/apm/core/utils/HashUtils.java:20-34 | a 20-segment SHA-1 fingerprint gives 28 characters whose last is the only '=' |
| HashUtils.OnlySeparators | core/src/main/java/com/apm/core/utils/HashUtils.java:27-34 | input made only of colons has no segments after `split`, so the key hash is empty |
| HashUtils.NoSegments | core/src/main/java/com/apm/core/utils/HashUtils.java:28-34 | no segments give no bytes and empty text |
| HashUtils.SeparatorPieces | core/src/main/java/com/apm/core/utils/HashUtils.java:27 | cutting a run of colons at every colon gives only empty pieces |
| HashUtils.DropAllEmpty | core/src/main/java/com/apm/core/utils/HashUtils.java:27 | trailing empty segments are all dropped, so only empty segments leave none |
| HashUtils.EmptyInput | core/src/main/java/com/apm/core/utils/HashUtils.java:27-31 | the empty input is one empty segment, which `Integer.decode` rejects |
| HashUtils.NonHexSegment | core/src/main/java/com/apm/core/utils/HashUtils.java:20-31 | a segment such as "H6" makes the whole conversion throw, naming "H6" |
| HashUtils.FirstFailure | core/src/main/java/com/apm/core/utils/HashUtils.java:30-31 | the loop stops at the first segment that fails |
| HashUtils.SplitExample | core/src/main/java/com/apm/core/utils/HashUtils.java:27 | "EF:H6:ED" splits into its three segments |
| FileUtils.Directory | core/src/main/java/com/apm/core/utils/FileUtils.java:348-349 | the directory is a prefix of the path that is empty or ends in the separator |
| FileUtils.FinalName | core/src/main/java/com/apm/core/utils/FileUtils.java:350 | the final name has no separator, and directory + final name is the whole path |
| FileUtils.DottedExtension | core/src/main/java/com/apm/core/utils/FileUtils.java:351 | `substring(lastIndexOf("."))` succeeds exactly when there is a '.'; it then returns a suffix that starts with its only '.', and otherwise throws at index -1 |
| FileUtils.FilePathNameExt | core/src/main/java/com/apm/core/utils/FileUtils.java:347-356 | three parts exactly when the final name has a '.'; otherwise it throws at -1. The directory ends in the separator and completes the path with the final name, and the extension has no '.' or separator and ends the final name after a '.'. The name part is stated by RepeatedExtension |
| FileUtils.ExtensionSuffix | core/src/main/java/com/apm/core/utils/FileUtils.java:351-353 | dropping the '.' of the dotted extension leaves text without separators |
| FileUtils.SplitAfterDirectory | core/src/main/java/com/apm/core/utils/FileUtils.java:348-350 | the path splits exactly after the directory when the name has no separator |
| FileUtils.SplitAtDot | core/src/main/java/com/apm/core/utils/FileUtils.java:351-352 | with one '.', the extension is what follows it and the name is what precedes it |
| FileUtils.DropDottedExtension | core/src/main/java/com/apm/core/utils/FileUtils.java:352 | removing the dotted extension from a name with no other '.' leaves the base |
| FileUtils.ExtensionAfterLastDot | core/src/main/java/com/apm/core/utils/FileUtils.java:351 | the extension is what follows the last '.', whatever precedes it |
| FileUtils.PartsOfName | core/src/main/java/com/apm/core/utils/FileUtils.java:347-355 | the three parts of a path are its directory, then the name with the extension removed, then the extension |
| FileUtils.PartsOfPath | core/src/main/java/com/apm/core/utils/FileUtils.java:347-355 | splitting directory + base + "." + extension gives back the three parts |
| FileUtils.OneDotRoundTrip | core/src/main/java/com/apm/core/utils/FileUtils.java:350-353 | with exactly one '.' in the final name, name + "." + extension is the final name |
| FileUtils.ReplaceTagged | core/src/main/java/com/apm/core/utils/FileUtils.java:352 | `replace(dotted, "")` removes every occurrence of the dotted extension and keeps the text between them, for pieces in which the dotted extension does not start, other dots allowed |
| FileUtils.TaggedLast | core/src/main/java/com/apm/core/utils/FileUtils.java:351 | a name built from pieces each followed by the dotted extension ends in the last piece and that extension |
| FileUtils.RepeatedExtension | core/src/main/java/com/apm/core/utils/FileUtils.java:347-355 | for one or more separator-free pieces, each followed by "." + extension and none holding the start of an occurrence of it, the name is the pieces run together with their other dots kept: every occurrence is removed, not only the last |
| FileUtils.InterleavedExtension | core/src/main/java/com/apm/core/utils/FileUtils.java:352 | "/sdcard/a.txtb.txt" gives name "ab": the occurrence in the middle is removed too |
| FileUtils.ArchiveExtension | core/src/main/java/com/apm/core/utils/FileUtils.java:347-355 | "/sdcard/archive.tar.gz" gives directory "/sdcard/", name "archive.tar" and extension "gz": a dot that does not start the extension stays in the name |
| FileUtils.BackupExtension | core/src/main/java/com/apm/core/utils/FileUtils.java:347-355 | "/sdcard/x.txt.bak.txt" gives name "x.bak" and extension "txt" |
| FileUtils.DoubledExtension | core/src/main/java/com/apm/core/utils/FileUtils.java:352 | "/sdcard/a.txt.txt" gives directory "/sdcard/", name "a" and extension "txt" |
| FileUtils.NoExtension | core/src/main/java/com/apm/core/utils/FileUtils.java:351 | a final name without '.' throws `StringIndexOutOfBoundsException` at -1 |
| FileUtils.Extension | core/src/main/java/com/apm/core/utils/FileUtils.java:127-129 | the extension is "png" exactly for PNG and "jpg" for JPEG and every other format |
| FileUtils.SavedImageFile | core/src/main/java/com/apm/core/utils/FileUtils.java:154-156 | for a name without separator, the file lies directly in path + separator and is named name + "." + the format's extension |
| FileUtils.SavedImagePathParts | core/src/main/java/com/apm/core/utils/FileUtils.java:154-156 | a saved image's path splits back into path + separator, the name, and the format's extension |
| FileUtils.MediaStorageDir | core/src/main/java/com/apm/core/utils/FileUtils.java:512-518 | a null or empty child directory means the media root itself; any other child is inside the root |
| FileUtils.CreateMediaFile | core/src/main/java/com/apm/core/utils/FileUtils.java:486-530 | null exactly when the directory cannot be made; otherwise the storage directory, a separator, and the kind's file name |
| FileUtils.MediaFileName | core/src/main/java/com/apm/core/utils/FileUtils.java:491-510 | AU_<t>.mp3 for audio, VID_<t>.mp4 for video, IMG_<t>.jpg for images |
| FileUtils.MediaFileParts | core/src/main/java/com/apm/core/utils/FileUtils.java:526-529 | a new media file splits into its directory, prefix + timestamp, and the kind's extension |
| FileUtils.MediaFileNameParts | core/src/main/java/com/apm/core/utils/FileUtils.java:495-508 | the prefixes have no '.' or separator, and each postfix is a '.' and an extension without either |
| FileUtils.DefaultImageFile | core/src/main/java/com/apm/core/utils/FileUtils.java:83-85 | the one-argument `SaveImageBytes` writes IMG_<t>.jpg directly in the pictures root, and throws `NullPointerException` when that file could not be created |
| StringUtils.LengthTrichotomy | core/src/main/java/com/apm/core/utils/StringUtils.java:105-116 | EQUALS is length equality, MAJOR is "longer", and exactly one of MAJOR, MINOR and EQUALS holds |
| StringUtils.CheckStringLength | core/src/main/java/com/apm/core/utils/StringUtils.java:105-120 | each comparison accepts a set of orderings of the length against the number: MAJOR longer, MAJOR_EQUALS longer or equal, MINOR shorter, MINOR_EQUALS shorter or equal, EQUALS equal |
| StringUtils.OrEqualsComparisons | core/src/main/java/com/apm/core/utils/StringUtils.java:107-116 | MAJOR_EQUALS is MAJOR or EQUALS, MINOR_EQUALS is MINOR or EQUALS, and each is the negation of the opposite strict one |
| StringUtils.CompareEquals | core/src/main/java/com/apm/core/utils/StringUtils.java:93-95 | true exactly for a non-null string with the same characters |
| StringUtils.CompareEqualsSymmetric | core/src/main/java/com/apm/core/utils/StringUtils.java:93-95 | `equals` is reflexive and symmetric on non-null strings |
| StringUtils.IsEmailValid | core/src/main/java/com/apm/core/utils/StringUtils.java:128-133 | an accepted address has at least six characters, does not start with '@' and ends in a letter |
| StringUtils.GroupsRecognised | core/src/main/java/com/apm/core/utils/StringUtils.java:129 | every sequence of labels, each followed by '.', is accepted by the groups recogniser |
| StringUtils.LabelThenGroups | core/src/main/java/com/apm/core/utils/StringUtils.java:129 | a label and '.', in front of nothing or of accepted groups, is accepted |
| StringUtils.GroupsParsed | core/src/main/java/com/apm/core/utils/StringUtils.java:129 | every text the groups recogniser accepts is a sequence of labels, each followed by '.' |
| StringUtils.FirstGroup | core/src/main/java/com/apm/core/utils/StringUtils.java:129 | accepted groups start with a label and '.', and what follows is empty or accepted groups |
| StringUtils.DomainSplit | core/src/main/java/com/apm/core/utils/StringUtils.java:129 | a domain cut after its last '.' is accepted exactly when the front is accepted groups and the rest a 2-4 letter top-level part |
| StringUtils.AddressSplit | core/src/main/java/com/apm/core/utils/StringUtils.java:129 | an address cut at its first '@' is accepted exactly when the front is a local part and the rest a domain |
| StringUtils.ParseRecognised | core/src/main/java/com/apm/core/utils/StringUtils.java:129 | every text of the pattern's form is accepted |
| StringUtils.DomainParsed | core/src/main/java/com/apm/core/utils/StringUtils.java:129 | an accepted domain is labels with their dots followed by a top-level part |
| StringUtils.RecognisedParse | core/src/main/java/com/apm/core/utils/StringUtils.java:129 | every accepted address has the pattern's form |
| StringUtils.EmailMatchesPattern | core/src/main/java/com/apm/core/utils/StringUtils.java:128-133 | the recogniser accepts exactly the language of the regular expression |
| StringUtils.LocalPartOfValid | core/src/main/java/com/apm/core/utils/StringUtils.java:129 | an accepted address starts with a non-empty run of word characters, '.' and '-' before its '@' |
| StringUtils.ExactlyOneAt | core/src/main/java/com/apm/core/utils/StringUtils.java:129 | an accepted address holds exactly one '@' |
| StringUtils.NoAtInGroups | core/src/main/java/com/apm/core/utils/StringUtils.java:129 | accepted groups hold no '@' |
| StringUtils.NoAtInDomain | core/src/main/java/com/apm/core/utils/StringUtils.java:129 | an accepted domain holds no '@' |
| StringUtils.NoDotInTopLevel | core/src/main/java/com/apm/core/utils/StringUtils.java:129 | a top-level part holds no '.' |
| StringUtils.NoAtInLocalPart | core/src/main/java/com/apm/core/utils/StringUtils.java:129 | a local part holds no '@' |
| StringUtils.CharClassesIgnoreCase | core/src/main/java/com/apm/core/utils/StringUtils.java:130 | characters equal up to ASCII case fall in the same classes, and '@' and '.' match only themselves |
| StringUtils.SameAt | core/src/main/java/com/apm/core/utils/StringUtils.java:130 | case differences never move the first '@' |
| StringUtils.SameDots | core/src/main/java/com/apm/core/utils/StringUtils.java:130 | case differences never move the first or the last '.' |
| StringUtils.GroupsIgnoreCase | core/src/main/java/com/apm/core/utils/StringUtils.java:130 | case differences never change whether the groups are accepted |
| StringUtils.DomainIgnoresCase | core/src/main/java/com/apm/core/utils/StringUtils.java:130 | case differences never change whether a domain is accepted |
| StringUtils.EmailIgnoresCase | core/src/main/java/com/apm/core/utils/StringUtils.java:130 | with `CASE_INSENSITIVE`, addresses that differ only in ASCII letter case get the same verdict, top-level part included |
| StringUtils.UpperCaseEmail | core/src/main/java/com/apm/core/utils/StringUtils.java:130 | upper-casing an address never changes the verdict |
| StringUtils.NoDotRejected | core/src/main/java/com/apm/core/utils/StringUtils.java:129 | a domain without '.' is rejected |
| StringUtils.TopLevelLengthRejected | core/src/main/java/com/apm/core/utils/StringUtils.java:129 | a top-level part shorter than 2 or longer than 4 is rejected |
| StringUtils.TopLevelLetterRejected | core/src/main/java/com/apm/core/utils/StringUtils.java:129 | a top-level part with a non-letter is rejected |
| StringUtils.EmptyLabelRejected | core/src/main/java/com/apm/core/utils/StringUtils.java:129 | two '.' in a row in the domain leave an empty label and are rejected |
| StringUtils.RejectsNoDot | core/src/main/java/com/apm/core/utils/StringUtils.java:129 | "a@b" is rejected |
| StringUtils.RejectsShortTopLevel | core/src/main/java/com/apm/core/utils/StringUtils.java:129 | "a@b.c" is rejected |
| StringUtils.RejectsEmptyLabel | core/src/main/java/com/apm/core/utils/StringUtils.java:129 | "a@b..com" is rejected |
| StringUtils.RejectsDigitInTopLevel | core/src/main/java/com/apm/core/utils/StringUtils.java:129 | "a@b.c0m" is rejected |
| StringUtils.RejectsLongTopLevel | core/src/main/java/com/apm/core/utils/StringUtils.java:129 | "a@b.museum" is rejected |
| StringUtils.AcceptsExample | core/src/main/java/com/apm/core/utils/StringUtils.java:129 | "j.doe@mail-1.Example.ORG" is accepted |
| DateUtils.Convert | core/src/main/java/com/apm/core/utils/DateUtils.java:54 | to a coarse unit the count never grows in magnitude; to a fine unit it is `Long.MAX_VALUE` or `Long.MIN_VALUE` exactly beyond ±(`Long.MAX_VALUE` / factor) |
| DateUtils.ConvertTruncates | core/src/main/java/com/apm/core/utils/DateUtils.java:54 | to a coarse unit the count is the number of whole units in the difference, signed like it |
| DateUtils.ConvertSaturates | core/src/main/java/com/apm/core/utils/DateUtils.java:54 | to a fine unit the result is the product saturated to the `long` range |
| DateUtils.Between | core/src/main/java/com/apm/core/utils/DateUtils.java:52-55 | the result is the converted `long` difference, modulo 2^32 |
| DateUtils.CalendarsBetween | core/src/main/java/com/apm/core/utils/DateUtils.java:40-43 | the Calendar overload is the Date overload on the calendars' instants |
| DateUtils.StringsBetween | core/src/main/java/com/apm/core/utils/DateUtils.java:26-31 | a result exactly when both strings parse, and then the Date overload's. Otherwise the start's `ParseException` wins, and the end's comes only when the start parsed |
| DateUtils.SameInstant | core/src/main/java/com/apm/core/utils/DateUtils.java:53-54 | equal instants are 0 apart in every unit |
| DateUtils.LessThanOneUnit | core/src/main/java/com/apm/core/utils/DateUtils.java:54 | less than one coarse unit apart, in either direction, is 0 |
| DateUtils.AlmostADay | core/src/main/java/com/apm/core/utils/DateUtils.java:54 | 23 h 59 min is 0 days |
| DateUtils.WholeDays | core/src/main/java/com/apm/core/utils/DateUtils.java:54 | n whole days apart is n days, for every `int` n: negative when the end lies before the start |
| DateUtils.ConvertNeg | core/src/main/java/com/apm/core/utils/DateUtils.java:54 | without saturation, converting commutes with negation |
| DateUtils.SwapNegates | core/src/main/java/com/apm/core/utils/DateUtils.java:53-54 | swapping the instants negates the result when nothing wraps or saturates |
| DateUtils.UnwrappedDifference | core/src/main/java/com/apm/core/utils/DateUtils.java:53 | a difference that fits a `long` is converted as it is |
| DateUtils.CalendarsAgree | core/src/main/java/com/apm/core/utils/DateUtils.java:41-42 | the Calendar and Date overloads agree on the same instants |
| DateUtils.MillisecondsWrap | core/src/main/java/com/apm/core/utils/DateUtils.java:54 | 2^31 ms apart is `Integer.MIN_VALUE` after the `(int)` cast |
| DateUtils.DifferenceWraps | core/src/main/java/com/apm/core/utils/DateUtils.java:53 | from the earliest to the latest instant the `long` difference wraps to -1 ms |
| DateUtils.NanosecondsSaturate | core/src/main/java/com/apm/core/utils/DateUtils.java:54 | in nanoseconds a large difference saturates, and its cast is -1 |
| BitmapUtils.ImageSize | core/src/main/java/com/apm/core/utils/BitmapUtils.java:101-106 | the point is (width, height) |
| BitmapUtils.IntDiv | core/src/main/java/com/apm/core/utils/BitmapUtils.java:122 | Java `int` division truncates toward zero, and `Integer.MIN_VALUE / -1` wraps to `Integer.MIN_VALUE` |
| BitmapUtils.ScaleFactor | core/src/main/java/com/apm/core/utils/BitmapUtils.java:122 | throws `ArithmeticException` exactly for a zero target; otherwise it is at most both quotients and equal to one of them |
| BitmapUtils.SmallerSourceGivesZero | core/src/main/java/com/apm/core/utils/BitmapUtils.java:122 | a source smaller than the target in either dimension gives sample size 0 |
| BitmapUtils.LargestFittingFactor | core/src/main/java/com/apm/core/utils/BitmapUtils.java:122 | the sample size is the largest s with s·target within the source in both dimensions |
| BitmapUtils.ScaledOptions | core/src/main/java/com/apm/core/utils/BitmapUtils.java:122-126 | the full decode is asked for the sample size with `inPurgeable` set, or the division throws |
| BitmapUtils.ScaledBitmapFromFile | core/src/main/java/com/apm/core/utils/BitmapUtils.java:115-129 | a bitmap exactly for a non-zero target: the file decoded with the scaled options |
| BitmapUtils.ScaledImageFileFromFile | core/src/main/java/com/apm/core/utils/BitmapUtils.java:140-161 | the scaled decode, compressed, is written under the file's own name in its directory. A zero target throws before the path is split, and a path without extension throws |
| BitmapUtils.ScaledBitmapFromBitmap | core/src/main/java/com/apm/core/utils/BitmapUtils.java:172-191 | the compressed bitmap is decoded with options computed from its own bounds |
| BitmapUtils.ScaledImageFileFromBitmap | core/src/main/java/com/apm/core/utils/BitmapUtils.java:204-225 | the bytes written are the unscaled compression of the bitmap, under the destination's own name in its directory; a zero target throws first, then a path without extension |
| BitmapUtils.TargetDoesNotMatter | core/src/main/java/com/apm/core/utils/BitmapUtils.java:216-224 | any two non-zero targets give the same written file |
| BitmapUtils.IntendedScaledImageFileFromBitmap | core/src/main/java/com/apm/core/utils/BitmapUtils.java:193-204 | the file holds the bytes `GetScaledImageBytesFromBitmap` returns, under the destination's name and directory |
| BitmapUtils.UnscaledBytesWritten | core/src/main/java/com/apm/core/utils/BitmapUtils.java:216-224 | halving a 4 x 4 bitmap writes the unscaled image as written, but the sample-size-2 image as intended |
| BitmapUtils.ScaledImageBytesFromBitmap | core/src/main/java/com/apm/core/utils/BitmapUtils.java:236-259 | equals `GetScaledImageBytesFromBytes` on the compressed bitmap |
| BitmapUtils.ScaledImageBytesFromBytes | core/src/main/java/com/apm/core/utils/BitmapUtils.java:270-289 | the bytes decoded with options from their own bounds, then compressed again |
| BitmapUtils.MinValueWraps | core/src/main/java/com/apm/core/utils/BitmapUtils.java:122 | `Integer.MIN_VALUE / -1` makes the sample size negative |
| AnimateUtils.StartCall | core/src/main/java/com/apm/core/utils/AnimateUtils.java:137-140 | a start callback sets `VISIBLE` or nothing, and sets it exactly for an in animation of an invisible view |
| AnimateUtils.EndCall | core/src/main/java/com/apm/core/utils/AnimateUtils.java:1049-1056 | an in animation never ends `GONE`; `GONE` is only set for a view that was not invisible, and `INVISIBLE` only for one that was |
| AnimateUtils.OnStart | core/src/main/java/com/apm/core/utils/AnimateUtils.java:137-140 | a start leaves the visibility or makes it `VISIBLE` |
| AnimateUtils.OnEnd | core/src/main/java/com/apm/core/utils/AnimateUtils.java:1049-1056 | an in animation ends unchanged, `VISIBLE` or `INVISIBLE` |
| AnimateUtils.Play | core/src/main/java/com/apm/core/utils/AnimateUtils.java:1044-1056 | a whole run ends unchanged, `VISIBLE`, or in the state the end callback sets; an in animation of an invisible view never ends `GONE` |
| AnimateUtils.AnimateViewShows | core/src/main/java/com/apm/core/utils/AnimateUtils.java:52-53 | `AnimateView` without `hideAtEnd` always ends `VISIBLE` |
| AnimateUtils.AnimateViewHides | core/src/main/java/com/apm/core/utils/AnimateUtils.java:47-51 | `AnimateView` with `hideAtEnd` ends `INVISIBLE` for an invisible view and `GONE` otherwise |
| AnimateUtils.OutEnd | core/src/main/java/com/apm/core/utils/AnimateUtils.java:416-420 | `ScaleOut`/`FadeOut` end like `AnimateView` with `hideAtEnd`, and leave the visibility unchanged without it |
| AnimateUtils.InStart | core/src/main/java/com/apm/core/utils/AnimateUtils.java:138-139 | `ScaleIn`/`FadeIn`/`TranslateView` start `VISIBLE` for an invisible view, and unchanged otherwise |
| AnimateUtils.ScaleAndFadeInEnd | core/src/main/java/com/apm/core/utils/AnimateUtils.java:144-145 | `ScaleIn`/`FadeIn` end `VISIBLE` with `visibleAtEnd`, and unchanged otherwise |
| AnimateUtils.TranslateEnd | core/src/main/java/com/apm/core/utils/AnimateUtils.java:1050-1055 | `TranslateView` ends `VISIBLE` with `visibleAtEnd`; otherwise `INVISIBLE` for an invisible view; otherwise unchanged |
| AnimateUtils.StartNeutral | core/src/main/java/com/apm/core/utils/AnimateUtils.java:42-43 | the starts of `AnimateView`, `ScaleOut` and `FadeOut` change nothing |
| AnimateUtils.InNeverGone | core/src/main/java/com/apm/core/utils/AnimateUtils.java:137-146 | an in animation ends `GONE` only for a view that was already `GONE` and that it left alone |
| AnimateUtils.PlayIdempotent | core/src/main/java/com/apm/core/utils/AnimateUtils.java:1044-1056 | running an animation twice ends where running it once does |
| AnimateUtils.EndDecides | core/src/main/java/com/apm/core/utils/AnimateUtils.java:46-53 | when the end callback sets a state, the outcome does not depend on the starting visibility |
| BarcodeGenerator.Paint | core/src/main/java/com/apm/core/utils/BarcodeGenerator.java:58-65 | the painted raster is 512 x 256 |
| BarcodeGenerator.Rasterize | core/src/main/java/com/apm/core/utils/BarcodeGenerator.java:58-65 | every pixel of the 512 x 256 grid is set: BLACK exactly where the matrix cell is set, WHITE exactly where it is not |
| BarcodeGenerator.DoInBackground | core/src/main/java/com/apm/core/utils/BarcodeGenerator.java:53-85 | failure exactly when the encoder throws, with its exception unchanged; never null; the result's kind matches the mode |
| BarcodeGenerator.ModesShareRaster | core/src/main/java/com/apm/core/utils/BarcodeGenerator.java:67-78 | the bitmap mode returns the painted raster, and the byte mode its JPEG at quality 100 |
| BarcodeGenerator.StringIsBase64OfBytes | core/src/main/java/com/apm/core/utils/BarcodeGenerator.java:70-78 | the text output is the Base64 of the byte output, and decodes back to it |
| BarcodeGenerator.OnlyTheRequestedEncoding | core/src/main/java/com/apm/core/utils/BarcodeGenerator.java:57 | only the encoder's answer for Code 128 at 512 x 256 affects the result |
| BarcodeGenerator.OnPreExecute | core/src/main/java/com/apm/core/utils/BarcodeGenerator.java:44-50 | start is announced exactly when there is a listener |
| BarcodeGenerator.Verdict | core/src/main/java/com/apm/core/utils/BarcodeGenerator.java:91-101 | null fails with "Cannot convert barcode.", an exception fails with itself, and each success kind gets its own overload |
| BarcodeGenerator.OnPostExecute | core/src/main/java/com/apm/core/utils/BarcodeGenerator.java:88-105 | with a listener, one verdict then finish; without one, nothing |
| BarcodeGenerator.Generate | core/src/main/java/com/apm/core/utils/BarcodeGenerator.java:44-105 | without a listener nothing is delivered; with one the trace opens with start and closes with finish, and an encoder failure is among the events |
| BarcodeGenerator.TraceShape | core/src/main/java/com/apm/core/utils/BarcodeGenerator.java:44-105 | with a listener the trace is start, one verdict, finish; without one it is empty |
| BarcodeGenerator.OneVerdictFinishLast | core/src/main/java/com/apm/core/utils/BarcodeGenerator.java:90-103 | exactly one verdict is delivered, and finish comes once and last |
| BarcodeGenerator.EncoderFailureReported | core/src/main/java/com/apm/core/utils/BarcodeGenerator.java:80-94 | an encoder exception reaches `onBarcodeGenerateFailed` unchanged, between start and finish |
| BarcodeGenerator.SuccessMatchesMode | core/src/main/java/com/apm/core/utils/BarcodeGenerator.java:95-100 | on success the callback overload matches the mode |
| BarcodeGenerator.Build | core/src/main/java/com/apm/core/utils/BarcodeGenerator.java:110-111 | a builder with no calls makes a bitmap generator without listener |
| BarcodeGenerator.LastModeWins | core/src/main/java/com/apm/core/utils/BarcodeGenerator.java:113-126 | the last `as*()` call decides the mode |
| BarcodeGenerator.DefaultMode | core/src/main/java/com/apm/core/utils/BarcodeGenerator.java:110 | without `as*()` calls the mode stays `BITMAP` |
| BarcodeGenerator.LastListenerWins | core/src/main/java/com/apm/core/utils/BarcodeGenerator.java:128-131 | there is a listener exactly when the last `listener()` call passed one |

## Findings

| source | as written | input that shows it | evidently intended | confidence | as-written member | corrected member |
|---|---|---|---|---|---|---|
| core/src/main/java/com/apm/core/utils/BitmapUtils.java:216-224 | `GetScaledImageFileFromBitmap` computes the sample size and sets it in the options. No decode uses the options, and the method writes the unscaled `imageBytes` | a 4 x 4 bitmap with target 2 x 2: the file holds the original image, not the one decoded at sample size 2 | the file holds the scaled image, as the documentation says ("File of scaled bitmap") and as `GetScaledImageBytesFromBitmap` computes it | medium, not executed | BitmapUtils.ScaledImageFileFromBitmap, BitmapUtils.UnscaledBytesWritten | BitmapUtils.IntendedScaledImageFileFromBitmap |

## Left out

- Threading. The `AsyncTask` executor and callback delivery are left out; one request is a sequential trace of events.
- External libraries are function-valued parameters, not modelled: the ZXing Code 128 writer, JPEG compression, `BitmapFactory` decoding, the `SimpleDateFormat` parser, `Environment` media roots and the clock. The encoder is assumed to pad its matrix to at least the 512 x 256 it is asked for.
- File-system effects are out of scope: `mkdirs`, `createNewFile`, the streams that write bytes, and `exists`. Whether the media directory could be made is a boolean parameter.
- Path resolution by `java.io.File`, which normalises separators in `new File(parent, child)` and `getAbsolutePath`. Paths are plain strings joined with '/'.
- The three-argument `SaveImageBytes(bytes, path, name)` (FileUtils.java:101-114). It only resolves `new File(path, name)` and writes; it chooses no extension.
- The 90-degree rotation `SaveImageBitmap` applies before writing. It is graphics work; only the file name the method chooses is modelled.
- `GetImageSize(File)` and `GetImageSize(byte[])` are bounds-only decodes. They appear as the `bounds`/`boundsOf` parameters of the scaling methods.
- Null references are left out except where the code tests for them:
  - the listener;
  - `CompareEquals`'s argument;
  - `CreateMediaFile`'s null file and child directory.
  A null decode result and the `NullPointerException` it would raise in `compress` are not modelled.
- The overloads of `ScaleIn`, `ScaleOut`, `FadeIn`, `FadeOut` and `TranslateView` that take a caller's `AnimationListener`, and `AnimateView(context, view, animResource, listener)` (AnimateUtils.java:110-115): the caller decides the visibility, not the library. The `TranslateView` overload without flags (AnimateUtils.java:1012-1021) sets no listener and leaves the visibility alone. Geometry, durations, interpolators and `AnimateCount` (floating point) are also left out.
- `CompareType` (com/apm/core/enums/CompareType.java) is not part of this model; its five constants are taken from the `switch` in `CheckStringLength`, whose `default` branch is unreachable for them.
- StringUtils.CheckStringLength: lengths count Unicode scalar values (a Dafny `char`), not UTF-16 code units. A character outside the Basic Multilingual Plane counts 1 where Java's `length()` counts 2, so for example "😀" has length 1 here and 2 in Java. Unpaired surrogates, which a Java string can hold, cannot be represented. The same holds for every string in the model.
- `\w`, `[A-Z]` and case folding are the ASCII classes Java uses without `UNICODE_CHARACTER_CLASS`.
- BarcodeGenerator.DoInBackground: the encoder can only fail with `WriterException`. ZXing's `Code128Writer` throws the unchecked `IllegalArgumentException` for empty or unencodable text. `doInBackground` catches only `WriterException`, so in that case the task dies, `onPostExecute` never runs, and the listener sees only the start, with no verdict and no finish. TraceShape and OneVerdictFinishLast hold only for encoders that fail with `WriterException`.
- HashUtils.DecodeSegment: accepts only ASCII hexadecimal digits, while `Integer.decode` also accepts other Unicode digits through `Character.digit`. The exception's message is not modelled: the model records the failing segment, while Java reports "Sign character in wrong position" for a segment starting with '+' or '-'.
- `Base64.Decode` is the strict inverse used to state the round trips, and it rejects non-zero unused bits in the last group. It is not a model of `android.util.Base64.decode`, which also accepts line breaks and missing padding and does not check those bits.
- DateUtils.Convert: the unit lengths are those of `java.util.concurrent.TimeUnit`; only conversion from milliseconds is modelled, which is the only direction the code uses.

=== FILE: animate_utils.dfy ===
/** The visibility logic of the animation listeners `AnimateUtils` installs
    itself (`AnimateView`, `ScaleIn`, `ScaleOut`, `FadeIn`, `FadeOut`,
    `TranslateView`): a view's visibility is a three-state machine, and each
    listener's start and end callbacks either set one state or leave the
    view alone. Geometry, timing and interpolators are left out. */
module AnimateUtils {
  import opened Wrappers

  /** `View.VISIBLE`, `View.INVISIBLE`, `View.GONE`. */
  datatype Visibility = VISIBLE | INVISIBLE | GONE

  /** An animation with the flags its listener captured. `AnimateView` and
      the two "out" animations take `hideAtEnd`; the three "in" animations
      take `visibleAtEnd`. */
  datatype Animation =
    | AnimateView(hideAtEnd: bool, isInvisible: bool)
    | ScaleIn(visibleAtEnd: bool, isInvisible: bool)
    | ScaleOut(hideAtEnd: bool, isInvisible: bool)
    | FadeIn(visibleAtEnd: bool, isInvisible: bool)
    | FadeOut(hideAtEnd: bool, isInvisible: bool)
    | TranslateView(visibleAtEnd: bool, isInvisible: bool)
  {
    /** The animations that bring a view in. */
    predicate IsIn() {
      ScaleIn? || FadeIn? || TranslateView?
    }

    /** The animations that take a view out. */
    predicate IsOut() {
      ScaleOut? || FadeOut?
    }
  }

  /** The state hidden views go to: `INVISIBLE` for a view that was
      invisible, `GONE` otherwise. */
  function Hidden(isInvisible: bool): Visibility {
    if isInvisible then INVISIBLE else GONE
  }

  /** A `setVisibility` call, or none. */
  function Apply(call: Option<Visibility>, v: Visibility): Visibility {
    if call.Some? then call.value else v
  }

  /** The `setVisibility` call of `onAnimationStart`. */
  function StartCall(a: Animation): (call: Option<Visibility>)
    ensures call.Some? ==> call.value == VISIBLE
    ensures call.Some? <==> a.IsIn() && a.isInvisible
  {
    match a
    case ScaleIn(_, isInvisible) => if isInvisible then Some(VISIBLE) else None
    case FadeIn(_, isInvisible) => if isInvisible then Some(VISIBLE) else None
    case TranslateView(_, isInvisible) => if isInvisible then Some(VISIBLE) else None
    case _ => None
  }

  /** The `setVisibility` call of `onAnimationEnd`. In `ScaleOut` and
      `FadeOut` the `else` belongs to the inner `if (isInvisible)`, so
      without `hideAtEnd` there is no call at all. */
  function EndCall(a: Animation): (call: Option<Visibility>)
    ensures a.IsIn() ==> call != Some(GONE)
    ensures call == Some(GONE) ==> !a.isInvisible
    ensures call == Some(INVISIBLE) ==> a.isInvisible
  {
    match a
    case AnimateView(hideAtEnd, isInvisible) =>
      if hideAtEnd then Some(Hidden(isInvisible)) else Some(VISIBLE)
    case ScaleIn(visibleAtEnd, _) => if visibleAtEnd then Some(VISIBLE) else None
    case FadeIn(visibleAtEnd, _) => if visibleAtEnd then Some(VISIBLE) else None
    case ScaleOut(hideAtEnd, isInvisible) => if hideAtEnd then Some(Hidden(isInvisible)) else None
    case FadeOut(hideAtEnd, isInvisible) => if hideAtEnd then Some(Hidden(isInvisible)) else None
    case TranslateView(visibleAtEnd, isInvisible) =>
      if visibleAtEnd then Some(VISIBLE)
      else if isInvisible then Some(INVISIBLE)
      else None
  }

  /** Visibility after `onAnimationStart`. */
  function OnStart(a: Animation, v: Visibility): (r: Visibility)
    ensures r == v || r == VISIBLE
  {
    Apply(StartCall(a), v)
  }

  /** Visibility after `onAnimationEnd`. */
  function OnEnd(a: Animation, v: Visibility): (r: Visibility)
    ensures a.IsIn() ==> r == v || r == VISIBLE || r == INVISIBLE
  {
    Apply(EndCall(a), v)
  }

  /** Visibility after a whole run: start, then end (`onAnimationRepeat`
      does nothing). */
  function Play(a: Animation, v: Visibility): (r: Visibility)
    ensures r == v || r == VISIBLE || Some(r) == EndCall(a)
    ensures a.IsIn() && a.isInvisible ==> r != GONE
  {
    OnEnd(a, OnStart(a, v))
  }

  /** `AnimateView` without `hideAtEnd` always ends `VISIBLE`. */
  lemma AnimateViewShows(isInvisible: bool, v: Visibility)
    ensures OnEnd(AnimateView(false, isInvisible), v) == VISIBLE
  {
  }

  /** `AnimateView` with `hideAtEnd` ends `INVISIBLE` for an invisible
      view and `GONE` otherwise. */
  lemma AnimateViewHides(isInvisible: bool, v: Visibility)
    ensures OnEnd(AnimateView(true, isInvisible), v) == (if isInvisible then INVISIBLE else GONE)
  {
  }

  /** With `hideAtEnd` the out animations end like `AnimateView`; without
      it they leave the visibility as it was. */
  lemma OutEnd(a: Animation, v: Visibility)
    requires a.IsOut()
    ensures a.hideAtEnd ==> OnEnd(a, v) == OnEnd(AnimateView(true, a.isInvisible), v)
    ensures !a.hideAtEnd ==> OnEnd(a, v) == v
  {
  }

  /** The in animations show an invisible view at the start and otherwise
      leave it alone. */
  lemma InStart(a: Animation, v: Visibility)
    requires a.IsIn()
    ensures OnStart(a, v) == (if a.isInvisible then VISIBLE else v)
  {
  }

  /** `ScaleIn` and `FadeIn` end `VISIBLE` with `visibleAtEnd` and otherwise
      leave the visibility as it was. */
  lemma ScaleAndFadeInEnd(a: Animation, v: Visibility)
    requires a.ScaleIn? || a.FadeIn?
    ensures OnEnd(a, v) == (if a.visibleAtEnd then VISIBLE else v)
  {
  }

  /** `TranslateView` ends `VISIBLE` with `visibleAtEnd`, otherwise
      `INVISIBLE` for an invisible view, otherwise as it was. */
  lemma TranslateEnd(a: Animation, v: Visibility)
    requires a.TranslateView?
    ensures OnEnd(a, v) == (if a.visibleAtEnd then VISIBLE else if a.isInvisible then INVISIBLE else v)
  {
  }

  /** The start of `AnimateView`, `ScaleOut` and `FadeOut` changes nothing. */
  lemma StartNeutral(a: Animation, v: Visibility)
    requires !a.IsIn()
    ensures OnStart(a, v) == v
  {
  }

  /** An in animation never makes a view `GONE`: a whole run ends `GONE`
      only for a view that was `GONE` and stays untouched. */
  lemma InNeverGone(a: Animation, v: Visibility)
    requires a.IsIn()
    ensures Play(a, v) == GONE ==> v == GONE && !a.isInvisible && !a.visibleAtEnd
  {
  }

  /** Running an animation a second time changes nothing more: every
      callback either sets a fixed state or does nothing. */
  lemma PlayIdempotent(a: Animation, v: Visibility)
    ensures Play(a, Play(a, v)) == Play(a, v)
  {
  }

  /** The end of an animation decides the outcome whenever it sets a state. */
  lemma EndDecides(a: Animation, v: Visibility, w: Visibility)
    requires EndCall(a).Some?
    ensures Play(a, v) == Play(a, w)
  {
  }
}

=== FILE: barcode_generator.dfy ===
/** `BarcodeGenerator`: one generation request, run as a sequential trace.
    The Code 128 encoder and JPEG compression are parameters; what the class
    itself does is modelled: the 512 x 256 rasterisation of the encoder's
    matrix, the choice of output by mode, the notifications a listener
    receives, and the builder. */
module BarcodeGenerator {
  import opened Wrappers
  import opened Integers
  import Base64
  import FileUtils

  const WIDTH: nat := 512
  const HEIGHT: nat := 256

  /** `Color.BLACK` and `Color.WHITE`: ARGB 0xFF000000 and 0xFFFFFFFF read
      as Java `int`s. */
  const BLACK: Int32 := -0x0100_0000
  const WHITE: Int32 := -1

  /** JPEG quality of the byte and text outputs. */
  const QUALITY: int := 100

  /** `com.google.zxing.BarcodeFormat`, of which only Code 128 is used. */
  datatype BarcodeFormat = CODE_128 | OTHER_FORMAT

  /** `com.apm.core.enums.BarcodeType`: the output mode. */
  datatype BarcodeType = BITMAP | STRING | BYTE_ARRAY

  /** `com.google.zxing.WriterException`. */
  datatype WriterException = WriterException(message: string)

  /** The message of the exception reported for a null result. */
  const NULL_RESULT_MESSAGE: string := "Cannot convert barcode."

  /** ZXing's `BitMatrix`, column by column: `columns[x][y]` is `get(x, y)`. */
  datatype BitMatrix = BitMatrix(columns: seq<seq<bool>>) {
    /** Every cell of the `w` x `h` grid can be read. */
    predicate Covers(w: nat, h: nat) {
      |columns| >= w && forall x :: 0 <= x < w ==> |columns[x]| >= h
    }
  }

  /** An ARGB_8888 bitmap, column by column: `pixels[x][y]` is `getPixel(x, y)`. */
  datatype Raster = Raster(pixels: seq<seq<Int32>>) {
    predicate HasSize(w: nat, h: nat) {
      |pixels| == w && forall x :: 0 <= x < w ==> |pixels[x]| == h
    }
  }

  /** The colour the loop writes for cell (x, y). */
  function Pixel(m: BitMatrix, x: nat, y: nat): Int32
    requires m.Covers(WIDTH, HEIGHT) && x < WIDTH && y < HEIGHT
  {
    if m.columns[x][y] then BLACK else WHITE
  }

  /** The raster the nested loop paints, as a value. */
  function Paint(m: BitMatrix): (r: Raster)
    requires m.Covers(WIDTH, HEIGHT)
    ensures r.HasSize(WIDTH, HEIGHT)
  {
    Raster(seq(WIDTH, x requires 0 <= x < WIDTH => seq(HEIGHT, y requires 0 <= y < HEIGHT => Pixel(m, x, y))))
  }

  /** The two nested loops of `doInBackground`: every pixel of the 512 x 256
      grid is set, black exactly where the matrix is set. */
  method Rasterize(m: BitMatrix) returns (r: Raster)
    requires m.Covers(WIDTH, HEIGHT)
    ensures r.HasSize(WIDTH, HEIGHT)
    ensures forall x, y :: 0 <= x < WIDTH && 0 <= y < HEIGHT ==>
              (r.pixels[x][y] == BLACK <==> m.columns[x][y])
    ensures forall x, y :: 0 <= x < WIDTH && 0 <= y < HEIGHT ==>
              (r.pixels[x][y] == WHITE <==> !m.columns[x][y])
    ensures r == Paint(m)
  {
    var columns: seq<seq<Int32>> := [];
    var i := 0;
    while i < WIDTH
      invariant 0 <= i <= WIDTH
      invariant |columns| == i
      invariant forall x :: 0 <= x < i ==> columns[x] == Paint(m).pixels[x]
    {
      var column: seq<Int32> := [];
      var j := 0;
      while j < HEIGHT
        invariant 0 <= j <= HEIGHT
        invariant |column| == j
        invariant forall y :: 0 <= y < j ==> column[y] == Pixel(m, i, y)
      {
        column := column + [if m.columns[i][j] then BLACK else WHITE];
        j := j + 1;
      }
      assert column == Paint(m).pixels[i];
      columns := columns + [column];
      i := i + 1;
    }
    r := Raster(columns);
    assert r.pixels == Paint(m).pixels;
  }

  /** What `doInBackground` returns, and `null`. */
  datatype Outcome =
    | BitmapResult(bitmap: Raster)
    | StringResult(text: string)
    | BytesResult(bytes: seq<Base64.Byte>)
    | Failure(exception: WriterException)
    | Null

  /** The external capabilities: `Code128Writer.encode(contents, format,
      width, height)` and `Bitmap.compress(format, quality, stream)`. */
  datatype Codecs = Codecs(
    encode: (string, BarcodeFormat, nat, nat) -> Result<BitMatrix, WriterException>,
    compress: (Raster, FileUtils.CompressFormat, int) -> seq<Base64.Byte>)

  /** The encoder's matrix for `text`, as `doInBackground` asks for it. */
  function Encode(codecs: Codecs, text: string): Result<BitMatrix, WriterException> {
    codecs.encode(text, CODE_128, WIDTH, HEIGHT)
  }

  /** ZXing pads its matrix to at least the requested size. */
  predicate EncoderPads(codecs: Codecs, text: string) {
    Encode(codecs, text).Ok? ==> Encode(codecs, text).value.Covers(WIDTH, HEIGHT)
  }

  /** `doInBackground(text)` for a generator in `mode`. */
  function DoInBackground(mode: BarcodeType, codecs: Codecs, text: string): (r: Outcome)
    requires EncoderPads(codecs, text)
    ensures Encode(codecs, text).Err? <==> r.Failure?
    ensures Encode(codecs, text).Err? ==> r.exception == Encode(codecs, text).error
    ensures !r.Null?
    ensures r.BitmapResult? ==> mode == BITMAP
    ensures r.StringResult? ==> mode == STRING
    ensures r.BytesResult? ==> mode == BYTE_ARRAY
  {
    match Encode(codecs, text)
    case Err(e) => Failure(e)
    case Ok(bm) =>
      var bitmap := Paint(bm);
      match mode
      case BITMAP => BitmapResult(bitmap)
      case STRING => StringResult(Base64.Encode(codecs.compress(bitmap, FileUtils.JPEG, QUALITY)))
      case BYTE_ARRAY => BytesResult(codecs.compress(bitmap, FileUtils.JPEG, QUALITY))
  }

  /** The bitmap mode returns the painted raster itself; the byte mode the
      JPEG (quality 100) compression of it. */
  lemma ModesShareRaster(codecs: Codecs, text: string)
    requires EncoderPads(codecs, text) && Encode(codecs, text).Ok?
    ensures DoInBackground(BITMAP, codecs, text) == BitmapResult(Paint(Encode(codecs, text).value))
    ensures DoInBackground(BYTE_ARRAY, codecs, text)
         == BytesResult(codecs.compress(Paint(Encode(codecs, text).value), FileUtils.JPEG, 100))
  {
  }

  /** The text output is the Base64 of the byte output, and decodes back
      to it. */
  lemma StringIsBase64OfBytes(codecs: Codecs, text: string)
    requires EncoderPads(codecs, text) && Encode(codecs, text).Ok?
    ensures DoInBackground(STRING, codecs, text).text == Base64.Encode(DoInBackground(BYTE_ARRAY, codecs, text).bytes)
    ensures Base64.Decode(DoInBackground(STRING, codecs, text).text) == Some(DoInBackground(BYTE_ARRAY, codecs, text).bytes)
  {
    Base64.DecodeEncode(DoInBackground(BYTE_ARRAY, codecs, text).bytes);
  }

  /** Only the encoder's answer for Code 128 at 512 x 256 matters: codecs that
      agree on that one call and on compression give the same outcome. */
  lemma OnlyTheRequestedEncoding(mode: BarcodeType, c1: Codecs, c2: Codecs, text: string)
    requires EncoderPads(c1, text)
    requires c1.encode(text, CODE_128, 512, 256) == c2.encode(text, CODE_128, 512, 256)
    requires c1.compress == c2.compress
    ensures EncoderPads(c2, text)
    ensures DoInBackground(mode, c1, text) == DoInBackground(mode, c2, text)
  {
  }

  /** A notification to `BarcodeGeneratorListener`. */
  datatype Event =
    | GenerateStart
    | SuccessfulBitmap(bitmap: Raster)
    | SuccessfulString(text: string)
    | SuccessfulBytes(bytes: seq<Base64.Byte>)
    | GenerateFailed(exception: WriterException)
    | GenerateFinish
  {
    predicate IsVerdict() {
      SuccessfulBitmap? || SuccessfulString? || SuccessfulBytes? || GenerateFailed?
    }
  }

  /** `onPreExecute`. */
  function OnPreExecute(hasListener: bool): (events: seq<Event>)
    ensures hasListener ==> events == [GenerateStart]
    ensures !hasListener ==> events == []
  {
    if hasListener then [GenerateStart] else []
  }

  /** The callback `onPostExecute` picks for a result. */
  function Verdict(result: Outcome): (e: Event)
    ensures e.IsVerdict()
    ensures result.Null? ==> e == GenerateFailed(WriterException(NULL_RESULT_MESSAGE))
    ensures result.Failure? ==> e == GenerateFailed(result.exception)
    ensures result.BitmapResult? ==> e == SuccessfulBitmap(result.bitmap)
    ensures result.StringResult? ==> e == SuccessfulString(result.text)
    ensures result.BytesResult? ==> e == SuccessfulBytes(result.bytes)
  {
    match result
    case Null => GenerateFailed(WriterException(NULL_RESULT_MESSAGE))
    case Failure(e) => GenerateFailed(e)
    case BitmapResult(b) => SuccessfulBitmap(b)
    case StringResult(s) => SuccessfulString(s)
    case BytesResult(b) => SuccessfulBytes(b)
  }

  /** `onPostExecute(result)`. */
  function OnPostExecute(hasListener: bool, result: Outcome): (events: seq<Event>)
    ensures !hasListener ==> events == []
    ensures hasListener ==> |events| == 2 && events[0].IsVerdict() && events[1] == GenerateFinish
  {
    if hasListener then [Verdict(result), GenerateFinish] else []
  }

  /** A generator as `Builder.build()` makes it. */
  datatype Generator = Generator(barcodeType: BarcodeType, hasListener: bool)

  /** `generate(text)`: the notifications of one request, in order. */
  function Generate(g: Generator, codecs: Codecs, text: string): (t: seq<Event>)
    requires EncoderPads(codecs, text)
    ensures !g.hasListener ==> t == []
    ensures g.hasListener ==> |t| >= 2 && t[0] == GenerateStart && t[|t| - 1] == GenerateFinish
    ensures g.hasListener && Encode(codecs, text).Err? ==> GenerateFailed(Encode(codecs, text).error) in t
  {
    OnPreExecute(g.hasListener) + OnPostExecute(g.hasListener, DoInBackground(g.barcodeType, codecs, text))
  }

  /** With a listener the trace is start, one verdict, finish; without one
      it is empty. */
  lemma TraceShape(g: Generator, codecs: Codecs, text: string)
    requires EncoderPads(codecs, text)
    ensures var t := Generate(g, codecs, text);
            if g.hasListener then
              |t| == 3 && t[0] == GenerateStart && t[1].IsVerdict() && t[2] == GenerateFinish
            else t == []
  {
  }

  /** Exactly one verdict is delivered, and finish comes once, last. */
  lemma OneVerdictFinishLast(g: Generator, codecs: Codecs, text: string)
    requires EncoderPads(codecs, text) && g.hasListener
    ensures var t := Generate(g, codecs, text);
            (forall i, j :: 0 <= i < |t| && 0 <= j < |t| && t[i].IsVerdict() && t[j].IsVerdict() ==> i == j)
            && t[|t| - 1] == GenerateFinish
            && forall i :: 0 <= i < |t| - 1 ==> t[i] != GenerateFinish
  {
    TraceShape(g, codecs, text);
  }

  /** An exception from the encoder reaches `onBarcodeGenerateFailed`
      unchanged, whatever the mode. */
  lemma EncoderFailureReported(g: Generator, codecs: Codecs, text: string, e: WriterException)
    requires EncoderPads(codecs, text) && g.hasListener
    requires Encode(codecs, text) == Err(e)
    ensures Generate(g, codecs, text) == [GenerateStart, GenerateFailed(e), GenerateFinish]
  {
  }

  /** On success the callback overload matches the mode. */
  lemma SuccessMatchesMode(g: Generator, codecs: Codecs, text: string)
    requires EncoderPads(codecs, text) && g.hasListener && Encode(codecs, text).Ok?
    ensures var v := Generate(g, codecs, text)[1];
            && (g.barcodeType == BITMAP <==> v.SuccessfulBitmap?)
            && (g.barcodeType == STRING <==> v.SuccessfulString?)
            && (g.barcodeType == BYTE_ARRAY <==> v.SuccessfulBytes?)
  {
  }

  /** A `Builder` call. */
  datatype BuilderCall = AsBitmap | AsBase64String | AsByteArray | Listener(present: bool)

  /** `Builder`: the calls in order, then `build()`. */
  function Build(calls: seq<BuilderCall>): (g: Generator)
    ensures calls == [] ==> g == Generator(BITMAP, false)
  {
    if |calls| == 0 then Generator(BITMAP, false)
    else
      var g := Build(calls[..|calls| - 1]);
      match calls[|calls| - 1]
      case AsBitmap => g.(barcodeType := BITMAP)
      case AsBase64String => g.(barcodeType := STRING)
      case AsByteArray => g.(barcodeType := BYTE_ARRAY)
      case Listener(present) => g.(hasListener := present)
  }

  /** The mode a call selects, if it is an `as*()` call. */
  function ModeOf(call: BuilderCall): Option<BarcodeType> {
    match call
    case AsBitmap => Some(BITMAP)
    case AsBase64String => Some(STRING)
    case AsByteArray => Some(BYTE_ARRAY)
    case Listener(_) => None
  }

  /** The last `as*()` call decides the mode; with none the mode is `BITMAP`. */
  lemma {:induction false} LastModeWins(calls: seq<BuilderCall>, k: nat)
    requires k < |calls| && ModeOf(calls[k]).Some?
    requires forall i :: k < i < |calls| ==> ModeOf(calls[i]).None?
    ensures Build(calls).barcodeType == ModeOf(calls[k]).value
    decreases |calls|
  {
    if k < |calls| - 1 {
      LastModeWins(calls[..|calls| - 1], k);
    }
  }

  /** Without an `as*()` call the mode stays `BITMAP`. */
  lemma {:induction false} DefaultMode(calls: seq<BuilderCall>)
    requires forall i :: 0 <= i < |calls| ==> ModeOf(calls[i]).None?
    ensures Build(calls).barcodeType == BITMAP
    decreases |calls|
  {
    if |calls| > 0 {
      DefaultMode(calls[..|calls| - 1]);
    }
  }

  /** The last `listener()` call decides whether there is a listener; with
      none there is not. */
  lemma {:induction false} LastListenerWins(calls: seq<BuilderCall>)
    ensures Build(calls).hasListener
        <==> exists k :: 0 <= k < |calls| && calls[k] == Listener(true)
                         && forall i :: k < i < |calls| ==> !calls[i].Listener?
    decreases |calls|
  {
    if |calls| > 0 {
      var init := calls[..|calls| - 1];
      LastListenerWins(init);
      var last := |calls| - 1;
      if calls[last].Listener? {
        if calls[last].present {
          assert calls[last] == Listener(true);
        } else {
          forall k | 0 <= k < |calls| && calls[k] == Listener(true)
            ensures exists i :: k < i < |calls| && calls[i].Listener?
          {
            assert k != last;
          }
        }
      } else {
        if Build(init).hasListener {
          var k :| 0 <= k < |init| && init[k] == Listener(true) && forall i :: k < i < |init| ==> !init[i].Listener?;
          assert calls[k] == Listener(true);
        }
        if exists k :: 0 <= k < |calls| && calls[k] == Listener(true) && forall i :: k < i < |calls| ==> !calls[i].Listener? {
          var k :| 0 <= k < |calls| && calls[k] == Listener(true) && forall i :: k < i < |calls| ==> !calls[i].Listener?;
          assert k != last;
          assert init[k] == Listener(true);
        }
      }
    }
  }
}

=== FILE: base64.dfy ===
/** Base64 of section 4 of RFC 4648: the standard alphabet, `=` padding, and
    no line breaks (Android's `Base64.NO_WRAP`). One encoder serves the key
    hash and the text output of the barcode generator. */
module Base64 {
  import opened Wrappers

  type Byte = b: int | 0 <= b < 256
  type Sextet = v: int | 0 <= v < 64

  /** Table 1 of RFC 4648: the character for a 6-bit value. */
  function Char(v: Sextet): (c: char)
    ensures IsAlphabetChar(c) && Value(c) == v
  {
    if v < 26 then ('A' as int + v) as char
    else if v < 52 then ('a' as int + (v - 26)) as char
    else if v < 62 then ('0' as int + (v - 52)) as char
    else if v == 62 then '+'
    else '/'
  }

  predicate IsAlphabetChar(c: char) {
    'A' <= c <= 'Z' || 'a' <= c <= 'z' || '0' <= c <= '9' || c == '+' || c == '/'
  }

  /** The 6-bit value Table 1 of RFC 4648 gives a character of the alphabet. */
  function Value(c: char): Sextet
    requires IsAlphabetChar(c)
  {
    if 'A' <= c <= 'Z' then c as int - 'A' as int
    else if 'a' <= c <= 'z' then c as int - 'a' as int + 26
    else if '0' <= c <= '9' then c as int - '0' as int + 52
    else if c == '+' then 62
    else 63
  }

  /** `s` is alphabet characters followed by exactly `p` padding characters. */
  predicate IsPadded(s: string, p: nat)
    requires p <= |s|
  {
    && (forall k :: 0 <= k < |s| - p ==> IsAlphabetChar(s[k]))
    && (forall k :: |s| - p <= k < |s| ==> s[k] == '=')
  }

  /** Three bytes, 24 bits, as four characters. */
  function EncodeTriple(a: Byte, b: Byte, c: Byte): (q: string)
    ensures |q| == 4 && IsPadded(q, 0)
  {
    [Char(a / 4), Char((a % 4) * 16 + b / 16), Char((b % 16) * 4 + c / 64), Char(c % 64)]
  }

  /** The encoding of `bytes`: each group of three bytes becomes four
      characters; a final group of one or two bytes is zero-filled and
      completed with two or one `=`. */
  function Encode(bytes: seq<Byte>): (s: string)
    ensures |s| == 4 * ((|bytes| + 2) / 3)
    ensures IsPadded(s, Padding(|bytes|))
  {
    if |bytes| < 3 then EncodeFinal(bytes)
    else
      var head, tail := EncodeTriple(bytes[0], bytes[1], bytes[2]), Encode(bytes[3..]);
      GroupStep(|bytes|);
      PaddedAppend(head, tail, Padding(|bytes|));
      head + tail
  }

  /** The last, short group: nothing, or one or two bytes and their padding. */
  function EncodeFinal(bytes: seq<Byte>): (s: string)
    requires |bytes| < 3
    ensures |s| == 4 * ((|bytes| + 2) / 3)
    ensures IsPadded(s, Padding(|bytes|))
  {
    if |bytes| == 0 then []
    else if |bytes| == 1 then
      var a := bytes[0];
      [Char(a / 4), Char((a % 4) * 16), '=', '=']
    else
      var a, b := bytes[0], bytes[1];
      [Char(a / 4), Char((a % 4) * 16 + b / 16), Char((b % 16) * 4), '=']
  }

  /** One more whole group adds four characters and no padding. */
  lemma GroupStep(n: nat)
    requires n >= 3
    ensures Padding(n) == Padding(n - 3)
    ensures 4 * ((n + 2) / 3) == 4 + 4 * ((n - 3 + 2) / 3)
  {
  }

  lemma PaddedAppend(head: string, tail: string, p: nat)
    requires p <= |tail| && IsPadded(head, 0) && IsPadded(tail, p)
    ensures IsPadded(head + tail, p)
  {
    var s := head + tail;
    forall k | 0 <= k < |s| - p ensures IsAlphabetChar(s[k]) {
      if k >= |head| {
        assert s[k] == tail[k - |head|];
      }
    }
  }

  /** The number of `=` that end the encoding of `n` bytes. */
  function Padding(n: nat): (p: nat)
    ensures p <= 2
    ensures p <= 4 * ((n + 2) / 3)
  {
    if n % 3 == 0 then 0 else 3 - n % 3
  }

  /** The inverse of `Encode`: `None` for text that is not a whole number of
      four-character groups of the alphabet with padding only at the end. */
  function Decode(s: string): Option<seq<Byte>>
    decreases |s|
  {
    if |s| == 0 then Some([])
    else if |s| < 4 then None
    else if |s| == 4 then DecodeLast(s)
    else
      match DecodeQuad(s[..4])
      case None => None
      case Some(t) =>
        match Decode(s[4..])
        case None => None
        case Some(rest) => Some(t + rest)
  }

  /** A group of four alphabet characters as three bytes. */
  function DecodeQuad(q: string): Option<seq<Byte>>
    requires |q| == 4
  {
    if IsAlphabetChar(q[0]) && IsAlphabetChar(q[1]) && IsAlphabetChar(q[2]) && IsAlphabetChar(q[3]) then
      var v0: int, v1: int, v2: int, v3: int := Value(q[0]), Value(q[1]), Value(q[2]), Value(q[3]);
      Some([v0 * 4 + v1 / 16, (v1 % 16) * 16 + v2 / 4, (v2 % 4) * 64 + v3])
    else None
  }

  /** The final group, which may carry one or two `=`. The bits of the last
      character that no byte uses must be zero (section 3.5 of RFC 4648), so
      that every byte sequence has exactly one encoding. */
  function DecodeLast(q: string): Option<seq<Byte>>
    requires |q| == 4
  {
    if IsAlphabetChar(q[0]) && IsAlphabetChar(q[1]) && q[2] == '=' && q[3] == '=' then
      if Value(q[1]) % 16 == 0 then Some([Value(q[0]) * 4 + Value(q[1]) / 16]) else None
    else if IsAlphabetChar(q[0]) && IsAlphabetChar(q[1]) && IsAlphabetChar(q[2]) && q[3] == '=' then
      var v1 := Value(q[1]);
      if Value(q[2]) % 4 == 0 then Some([Value(q[0]) * 4 + v1 / 16, (v1 % 16) * 16 + Value(q[2]) / 4]) else None
    else DecodeQuad(q)
  }

  lemma TripleRoundTrip(a: Byte, b: Byte, c: Byte)
    ensures DecodeQuad(EncodeTriple(a, b, c)) == Some([a, b, c])
    ensures DecodeLast(EncodeTriple(a, b, c)) == Some([a, b, c])
  {
    var q := EncodeTriple(a, b, c);
    var v1, v2 := (a % 4) * 16 + b / 16, (b % 16) * 4 + c / 64;
    assert Value(q[0]) == a / 4 && Value(q[1]) == v1 && Value(q[2]) == v2 && Value(q[3]) == c % 64;
    Regroup16(a % 4, b / 16);
    Regroup4(b % 16, c / 64);
    assert a == (a / 4) * 4 + a % 4;
    assert b == (b / 16) * 16 + b % 16;
    assert c == (c / 64) * 64 + c % 64;
  }

  /** The middle character of a group re-splits into its two sources. */
  lemma Regroup16(low: nat, next: nat)
    requires low < 16 && next < 16
    ensures (low * 16 + next) / 16 == low && (low * 16 + next) % 16 == next
  {
  }

  lemma Regroup4(low: nat, next: nat)
    requires low < 64 && next < 4
    ensures (low * 4 + next) / 4 == low && (low * 4 + next) % 4 == next
  {
  }

  lemma OneByteRoundTrip(a: Byte)
    ensures Decode(Encode([a])) == Some([a])
  {
    var q := Encode([a]);
    assert Value(q[1]) == (a % 4) * 16;
  }

  lemma TwoBytesRoundTrip(a: Byte, b: Byte)
    ensures Decode(Encode([a, b])) == Some([a, b])
  {
    var q := Encode([a, b]);
    var v1, v2 := (a % 4) * 16 + b / 16, (b % 16) * 4;
    assert q == [Char(a / 4), Char(v1), Char(v2), '='];
    assert Value(q[1]) == v1 && Value(q[2]) == v2;
    Regroup16(a % 4, b / 16);
    assert Decode(q) == Some([Value(q[0]) * 4 + v1 / 16, (v1 % 16) * 16 + v2 / 4]);
  }

  /** Decoding undoes encoding, for every byte sequence. */
  lemma {:induction false} DecodeEncode(bytes: seq<Byte>)
    ensures Decode(Encode(bytes)) == Some(bytes)
    decreases |bytes|
  {
    if |bytes| == 0 {
    } else if |bytes| == 1 {
      OneByteRoundTrip(bytes[0]);
      assert [bytes[0]] == bytes;
    } else if |bytes| == 2 {
      TwoBytesRoundTrip(bytes[0], bytes[1]);
      assert [bytes[0], bytes[1]] == bytes;
    } else {
      var head := EncodeTriple(bytes[0], bytes[1], bytes[2]);
      var tail := bytes[3..];
      TripleRoundTrip(bytes[0], bytes[1], bytes[2]);
      assert bytes == [bytes[0], bytes[1], bytes[2]] + tail;
      if |tail| == 0 {
        assert Encode(bytes) == head;
        assert Decode(head) == DecodeLast(head);
        assert bytes == [bytes[0], bytes[1], bytes[2]];
      } else {
        assert Encode(bytes) == head + Encode(tail);
        DecodeEncode(tail);
        DecodeGroups(head, Encode(tail), [bytes[0], bytes[1], bytes[2]], tail);
      }
    }
  }

  /** A whole group in front of a decodable, non-empty rest decodes to the
      group's bytes in front of the rest's. */
  lemma DecodeGroups(head: string, rest: string, t: seq<Byte>, u: seq<Byte>)
    requires |head| == 4 && |rest| > 0
    requires DecodeQuad(head) == Some(t) && Decode(rest) == Some(u)
    ensures Decode(head + rest) == Some(t + u)
  {
    var s := head + rest;
    assert s[..4] == head;
    assert s[4..] == rest;
  }

  /** Every text that decodes is the encoding of what it decodes to: the
      encoding is canonical, so each byte sequence has exactly one Base64 text. */
  lemma {:induction false} EncodeDecode(s: string, bytes: seq<Byte>)
    requires Decode(s) == Some(bytes)
    ensures Encode(bytes) == s
    decreases |s|
  {
    if |s| == 0 {
    } else if |s| < 4 {
      assert false;
    } else if |s| == 4 {
      LastCanonical(s, bytes);
    } else {
      var t := DecodeQuad(s[..4]).value;
      var rest := Decode(s[4..]).value;
      assert bytes == t + rest;
      QuadCanonical(s[..4], t);
      EncodeDecode(s[4..], rest);
      assert bytes[..3] == t && bytes[3..] == rest;
      assert Encode(bytes) == EncodeTriple(t[0], t[1], t[2]) + Encode(rest);
      assert s == s[..4] + s[4..];
    }
  }

  /** Table 1 is a bijection: a character of the alphabet is the character
      of its value. */
  lemma CharValue(c: char)
    requires IsAlphabetChar(c)
    ensures Char(Value(c)) == c
  {
  }

  lemma Regroup64(low: nat, next: nat)
    requires low < 4 && next < 64
    ensures (low * 64 + next) / 64 == low && (low * 64 + next) % 64 == next
  {
  }

  /** Regrouping the bits of four sextets into three bytes and back gives
      the same sextets. */
  lemma SextetsOfBytes(v0: Sextet, v1: Sextet, v2: Sextet, v3: Sextet)
    ensures var a, b, c := v0 * 4 + v1 / 16, (v1 % 16) * 16 + v2 / 4, (v2 % 4) * 64 + v3;
            && a / 4 == v0 && (a % 4) * 16 + b / 16 == v1
            && (b % 16) * 4 + c / 64 == v2 && c % 64 == v3
  {
    Regroup4(v0, v1 / 16);
    Regroup16(v1 % 16, v2 / 4);
    Regroup64(v2 % 4, v3);
  }

  /** A group of four alphabet characters is the encoding of the three bytes
      it decodes to. */
  lemma QuadCanonical(q: string, t: seq<Byte>)
    requires |q| == 4 && DecodeQuad(q) == Some(t)
    ensures |t| == 3 && EncodeTriple(t[0], t[1], t[2]) == q
  {
    var v0, v1, v2, v3 := Value(q[0]), Value(q[1]), Value(q[2]), Value(q[3]);
    SextetsOfBytes(v0, v1, v2, v3);
    var a, b, c := t[0], t[1], t[2];
    assert a / 4 == v0 && (a % 4) * 16 + b / 16 == v1 && (b % 16) * 4 + c / 64 == v2 && c % 64 == v3;
    CharValue(q[0]); CharValue(q[1]); CharValue(q[2]); CharValue(q[3]);
    assert EncodeTriple(a, b, c) == [Char(v0), Char(v1), Char(v2), Char(v3)];
  }

  /** A final group that decodes is the encoding of what it decodes to. */
  lemma LastCanonical(q: string, bytes: seq<Byte>)
    requires |q| == 4 && DecodeLast(q) == Some(bytes)
    ensures Encode(bytes) == q
  {
    if q[2] == '=' && q[3] == '=' {
      var v0, v1 := Value(q[0]), Value(q[1]);
      SextetsOfBytes(v0, v1, 0, 0);
      var a := bytes[0];
      assert a / 4 == v0 && (a % 4) * 16 == v1;
      CharValue(q[0]); CharValue(q[1]);
      assert Encode(bytes) == [Char(v0), Char(v1), '=', '='];
    } else if q[3] == '=' {
      var v0, v1, v2 := Value(q[0]), Value(q[1]), Value(q[2]);
      SextetsOfBytes(v0, v1, v2, 0);
      var a, b := bytes[0], bytes[1];
      assert a / 4 == v0 && (a % 4) * 16 + b / 16 == v1 && (b % 16) * 4 == v2;
      CharValue(q[0]); CharValue(q[1]); CharValue(q[2]);
      assert Encode(bytes) == [Char(v0), Char(v1), Char(v2), '='];
    } else {
      QuadCanonical(q, bytes);
      assert Encode(bytes) == EncodeTriple(bytes[0], bytes[1], bytes[2]) + Encode([]);
    }
  }

  /** A SHA-1 digest (20 bytes) encodes to 28 characters ending in exactly one `=`. */
  lemma Sha1Length(digest: seq<Byte>)
    requires |digest| == 20
    ensures |Encode(digest)| == 28
    ensures Encode(digest)[27] == '=' && Encode(digest)[26] != '='
  {
  }
}

=== FILE: bitmap_utils.dfy ===
/** The sample-size arithmetic of the `BitmapUtils.GetScaled*` methods and
    `GetImageSize(Bitmap)`. Decoding, compressing and writing images belong
    to the Android graphics library and are parameters here: a bounds-only
    decode yields the source's size, a full decode takes the options the
    method prepared, and compression yields bytes. */
module BitmapUtils {
  import opened Wrappers
  import opened Integers
  import Base64
  import FileUtils

  type Bytes = seq<Base64.Byte>

  /** `android.graphics.Point`. */
  datatype Point = Point(x: Int32, y: Int32)

  /** `android.graphics.Bitmap`: its size and its pixels. */
  datatype Bitmap = Bitmap(width: Int32, height: Int32, pixels: seq<int>)

  /** The `BitmapFactory.Options` of the second, full decode. */
  datatype Options = Options(inSampleSize: Int32, inPurgeable: bool)

  /** What the scaling methods can throw before any I/O: division by a zero
      target, or the missing extension `GetFilePathNameExt` trips on. */
  datatype Failure = ArithmeticException | StringIndexOutOfBounds(index: int)

  /** The arguments of `SaveImageBytesInFolder(bitmapBytes, new File(storePath), imageName)`. */
  datatype Saved = Saved(bitmapBytes: Bytes, storePath: string, imageName: string)

  /** `GetImageSize(Bitmap)`. */
  function ImageSize(bitmap: Bitmap): (p: Point)
    ensures p.x == bitmap.width && p.y == bitmap.height
  {
    Point(bitmap.width, bitmap.height)
  }

  /** Java's `int` division: truncated toward zero, and the one quotient
      that does not fit, `Integer.MIN_VALUE / -1`, wraps to itself. */
  function IntDiv(a: Int32, b: Int32): (q: Int32)
    requires b != 0
    ensures a == INT_MIN && b == -1 ==> q == INT_MIN
    ensures !(a == INT_MIN && b == -1) ==> q == Quot(a, b)
  {
    QuotFits(a, b);
    ToInt(Quot(a, b))
  }

  /** An `int` quotient fits an `int` except `Integer.MIN_VALUE / -1`,
      which is one too large. */
  lemma QuotFits(a: Int32, b: Int32)
    requires b != 0
    ensures !(a == INT_MIN && b == -1) ==> IsInt(Quot(a, b))
    ensures a == INT_MIN && b == -1 ==> Quot(a, b) == INT_MAX + 1
  {
    if b > 0 {
      QuotShrinks(a, b);
    } else {
      var d: int := 0 - b as int;
      QuotShrinks(a, d);
      assert Quot(a, b) == -Quot(a, d);
      if b < -1 {
        QuotHalves(a, d);
      }
    }
  }

  /** A divisor of at least 2 halves the magnitude at least. */
  lemma QuotHalves(a: int, b: int)
    requires b >= 2
    ensures 2 * Abs(Quot(a, b)) <= Abs(a)
  {
    QuotTruncates(a, b);
    MulMonotone(2, b, Abs(Quot(a, b)));
  }

  function Min(a: int, b: int): int {
    if a <= b then a else b
  }

  /** `Math.min(photoW / targetW, photoH / targetH)`; the width is divided
      first, and a zero divisor throws. */
  function ScaleFactor(photoW: Int32, photoH: Int32, targetW: Int32, targetH: Int32): (r: Result<Int32, Failure>)
    ensures r.Err? <==> targetW == 0 || targetH == 0
    ensures r.Err? ==> r.error == ArithmeticException
    ensures r.Ok? ==> r.value <= IntDiv(photoW, targetW) && r.value <= IntDiv(photoH, targetH)
    ensures r.Ok? ==> r.value == IntDiv(photoW, targetW) || r.value == IntDiv(photoH, targetH)
  {
    if targetW == 0 then Err(ArithmeticException)
    else
      var byWidth := IntDiv(photoW, targetW);
      if targetH == 0 then Err(ArithmeticException)
      else Ok(Min(byWidth, IntDiv(photoH, targetH)))
  }

  /** For sizes that are not negative, a source smaller than the target in
      either dimension gets sample size 0. */
  lemma SmallerSourceGivesZero(photoW: Int32, photoH: Int32, targetW: Int32, targetH: Int32)
    requires 0 <= photoW && 0 <= photoH && 0 < targetW && 0 < targetH
    requires photoW < targetW || photoH < targetH
    ensures ScaleFactor(photoW, photoH, targetW, targetH) == Ok(0)
  {
  }

  /** For a source that is not negative and a positive target, the sample
      size is the largest `s` with `s * targetW <= photoW` and
      `s * targetH <= photoH`. */
  lemma LargestFittingFactor(photoW: Int32, photoH: Int32, targetW: Int32, targetH: Int32)
    requires 0 <= photoW && 0 <= photoH && 0 < targetW && 0 < targetH
    ensures ScaleFactor(photoW, photoH, targetW, targetH).Ok?
    ensures var s := ScaleFactor(photoW, photoH, targetW, targetH).value;
            0 <= s && s * targetW <= photoW && s * targetH <= photoH
            && ((s + 1) * targetW > photoW || (s + 1) * targetH > photoH)
  {
    var s := ScaleFactor(photoW, photoH, targetW, targetH).value;
    var w := Quot(photoW, targetW);
    var h := Quot(photoH, targetH);
    QuotTruncates(photoW, targetW);
    QuotTruncates(photoH, targetH);
    if w <= h {
      assert s == w;
      MulMonotone(w, h, targetH);
    } else {
      assert s == h;
      MulMonotone(h, w, targetW);
    }
  }

  lemma MulMonotone(a: nat, b: nat, c: nat)
    requires a <= b
    ensures a * c <= b * c
  {
  }

  /** The options of the full decode: the sample size, and `inPurgeable`. */
  function ScaledOptions(bounds: Point, targetW: Int32, targetH: Int32): (r: Result<Options, Failure>)
    ensures r.Ok? <==> ScaleFactor(bounds.x, bounds.y, targetW, targetH).Ok?
    ensures r.Ok? ==> r.value == Options(ScaleFactor(bounds.x, bounds.y, targetW, targetH).value, true)
    ensures r.Err? ==> r.error == ArithmeticException
  {
    var factor :- ScaleFactor(bounds.x, bounds.y, targetW, targetH);
    Ok(Options(factor, true))
  }

  /** `GetScaledBitmapFromFile`: `bounds` is what the bounds-only decode of
      the file reported. */
  function ScaledBitmapFromFile(bounds: Point, decodeFile: Options -> Bitmap,
                                targetW: Int32, targetH: Int32): (r: Result<Bitmap, Failure>)
    ensures r.Ok? <==> targetW != 0 && targetH != 0
    ensures r.Ok? ==> r.value == decodeFile(ScaledOptions(bounds, targetW, targetH).value)
  {
    var options :- ScaledOptions(bounds, targetW, targetH);
    Ok(decodeFile(options))
  }

  /** `GetScaledImageFileFromFile`: the scaled decode is compressed and
      written back under the file's own name in the directory
      `GetFilePathNameExt` reports. */
  function ScaledImageFileFromFile(absolutePath: string, bounds: Point, decodeFile: Options -> Bitmap,
                                   compress: (Bitmap, FileUtils.CompressFormat, int) -> Bytes,
                                   targetW: Int32, targetH: Int32,
                                   format: FileUtils.CompressFormat, quality: Int32): (r: Result<Saved, Failure>)
    ensures r.Ok? <==> targetW != 0 && targetH != 0 && FileUtils.FilePathNameExt(absolutePath).Ok?
    ensures targetW == 0 || targetH == 0 ==> r == Err(ArithmeticException)
    ensures r.Ok? ==> r.value == Saved(compress(decodeFile(ScaledOptions(bounds, targetW, targetH).value), format, quality),
                                       FileUtils.Directory(absolutePath), FileUtils.FinalName(absolutePath))
  {
    var options :- ScaledOptions(bounds, targetW, targetH);
    var imageBytes := compress(decodeFile(options), format, quality);
    match FileUtils.FilePathNameExt(absolutePath)
    case Err(e) => Err(StringIndexOutOfBounds(e.index))
    case Ok(path) => Ok(Saved(imageBytes, path.directory, FileUtils.FinalName(absolutePath)))
  }

  /** `GetScaledBitmapFromBitmap`: the bitmap is compressed, and its bytes
      decoded twice, once for bounds and once with the options. */
  function ScaledBitmapFromBitmap(bitmap: Bitmap, boundsOf: Bytes -> Point, decodeBytes: (Bytes, Options) -> Bitmap,
                                  compress: (Bitmap, FileUtils.CompressFormat, int) -> Bytes,
                                  targetW: Int32, targetH: Int32,
                                  format: FileUtils.CompressFormat, quality: Int32): (r: Result<Bitmap, Failure>)
    ensures r.Ok? <==> targetW != 0 && targetH != 0
    ensures var imageBytes := compress(bitmap, format, quality);
            r.Ok? ==> r.value == decodeBytes(imageBytes, ScaledOptions(boundsOf(imageBytes), targetW, targetH).value)
  {
    var imageBytes := compress(bitmap, format, quality);
    var options :- ScaledOptions(boundsOf(imageBytes), targetW, targetH);
    Ok(decodeBytes(imageBytes, options))
  }

  /** `GetScaledImageFileFromBitmap`: the factor is computed (and can throw)
      but no scaled decode follows; the bytes written are the unscaled
      compression of the bitmap. */
  function ScaledImageFileFromBitmap(bitmap: Bitmap, destPath: string, boundsOf: Bytes -> Point,
                                     compress: (Bitmap, FileUtils.CompressFormat, int) -> Bytes,
                                     targetW: Int32, targetH: Int32,
                                     format: FileUtils.CompressFormat, quality: Int32): (r: Result<Saved, Failure>)
    ensures r.Ok? <==> targetW != 0 && targetH != 0 && FileUtils.FilePathNameExt(destPath).Ok?
    ensures targetW == 0 || targetH == 0 ==> r == Err(ArithmeticException)
    ensures r.Ok? ==> r.value.bitmapBytes == compress(bitmap, format, quality)
    ensures r.Ok? ==> r.value.storePath == FileUtils.Directory(destPath) && r.value.imageName == FileUtils.FinalName(destPath)
  {
    var imageBytes := compress(bitmap, format, quality);
    var _ :- ScaledOptions(boundsOf(imageBytes), targetW, targetH);
    match FileUtils.FilePathNameExt(destPath)
    case Err(e) => Err(StringIndexOutOfBounds(e.index))
    case Ok(path) => Ok(Saved(imageBytes, path.directory, FileUtils.FinalName(destPath)))
  }

  /** The target size never changes what `GetScaledImageFileFromBitmap`
      writes, only whether it throws. */
  lemma TargetDoesNotMatter(bitmap: Bitmap, destPath: string, boundsOf: Bytes -> Point,
                            compress: (Bitmap, FileUtils.CompressFormat, int) -> Bytes,
                            w1: Int32, h1: Int32, w2: Int32, h2: Int32,
                            format: FileUtils.CompressFormat, quality: Int32)
    requires w1 != 0 && h1 != 0 && w2 != 0 && h2 != 0
    ensures ScaledImageFileFromBitmap(bitmap, destPath, boundsOf, compress, w1, h1, format, quality)
         == ScaledImageFileFromBitmap(bitmap, destPath, boundsOf, compress, w2, h2, format, quality)
  {
  }

  /** `GetScaledImageFileFromBitmap` as its documentation describes it: the
      file holds the scaled image, that is the bytes
      `GetScaledImageBytesFromBitmap` returns for the same arguments. */
  function IntendedScaledImageFileFromBitmap(bitmap: Bitmap, destPath: string, boundsOf: Bytes -> Point,
                                             decodeBytes: (Bytes, Options) -> Bitmap,
                                             compress: (Bitmap, FileUtils.CompressFormat, int) -> Bytes,
                                             targetW: Int32, targetH: Int32,
                                             format: FileUtils.CompressFormat, quality: Int32): (r: Result<Saved, Failure>)
    ensures r.Ok? <==> targetW != 0 && targetH != 0 && FileUtils.FilePathNameExt(destPath).Ok?
    ensures targetW == 0 || targetH == 0 ==> r == Err(ArithmeticException)
    ensures r.Ok? ==> (r.value.bitmapBytes ==
      ScaledImageBytesFromBitmap(bitmap, boundsOf, decodeBytes, compress, targetW, targetH, format, quality).value)
    ensures r.Ok? ==> r.value.storePath == FileUtils.Directory(destPath) && r.value.imageName == FileUtils.FinalName(destPath)
  {
    var scaled :- ScaledImageBytesFromBitmap(bitmap, boundsOf, decodeBytes, compress, targetW, targetH, format, quality);
    match FileUtils.FilePathNameExt(destPath)
    case Err(e) => Err(StringIndexOutOfBounds(e.index))
    case Ok(path) => Ok(Saved(scaled, path.directory, FileUtils.FinalName(destPath)))
  }

  /** Stand-ins for the graphics library that make the sample size visible:
      a 4 x 4 source, a decode whose size is the sample size, and a
      "compression" that records the width. */
  function FourByFour(imageBytes: Bytes): Point {
    Point(4, 4)
  }

  function DecodeAtSampleSize(imageBytes: Bytes, options: Options): Bitmap {
    Bitmap(options.inSampleSize, options.inSampleSize, [])
  }

  function WidthAsBytes(bitmap: Bitmap, format: FileUtils.CompressFormat, quality: int): Bytes {
    if 0 <= bitmap.width < 256 then [bitmap.width] else []
  }

  /** Asked to halve a 4 x 4 bitmap into a file, the method as written stores
      the unscaled image, while the intended one stores the image decoded
      with sample size 2. */
  lemma UnscaledBytesWritten(destPath: string)
    requires FileUtils.FilePathNameExt(destPath).Ok?
    ensures ScaledImageFileFromBitmap(Bitmap(4, 4, []), destPath, FourByFour, WidthAsBytes, 2, 2, FileUtils.JPEG, 100)
            .value.bitmapBytes == [4]
    ensures IntendedScaledImageFileFromBitmap(Bitmap(4, 4, []), destPath, FourByFour, DecodeAtSampleSize, WidthAsBytes,
                                              2, 2, FileUtils.JPEG, 100).value.bitmapBytes == [2]
  {
    var source := Bitmap(4, 4, []);
    var written := ScaledImageFileFromBitmap(source, destPath, FourByFour, WidthAsBytes, 2, 2, FileUtils.JPEG, 100);
    assert written.value.bitmapBytes == WidthAsBytes(source, FileUtils.JPEG, 100);
    assert WidthAsBytes(source, FileUtils.JPEG, 100) == [4];
    HalvedOptions(WidthAsBytes(source, FileUtils.JPEG, 100));
  }

  /** A 4 x 4 source with a 2 x 2 target gets sample size 2. */
  lemma HalvedOptions(imageBytes: Bytes)
    ensures ScaledOptions(FourByFour(imageBytes), 2, 2) == Ok(Options(2, true))
  {
    assert Quot(4, 2) == 2;
    assert IntDiv(4, 2) == 2;
  }

  /** `GetScaledImageBytesFromBitmap`: compress, decode with the options,
      compress again. */
  function ScaledImageBytesFromBitmap(bitmap: Bitmap, boundsOf: Bytes -> Point, decodeBytes: (Bytes, Options) -> Bitmap,
                                      compress: (Bitmap, FileUtils.CompressFormat, int) -> Bytes,
                                      targetW: Int32, targetH: Int32,
                                      format: FileUtils.CompressFormat, quality: Int32): (r: Result<Bytes, Failure>)
    ensures r.Ok? <==> targetW != 0 && targetH != 0
    ensures r.Ok? ==> r == ScaledImageBytesFromBytes(compress(bitmap, format, quality), boundsOf, decodeBytes, compress,
                                                     targetW, targetH, format, quality)
  {
    var imageBytes := compress(bitmap, format, quality);
    var options :- ScaledOptions(boundsOf(imageBytes), targetW, targetH);
    Ok(compress(decodeBytes(imageBytes, options), format, quality))
  }

  /** `GetScaledImageBytesFromBytes`: decode the bytes with the options, then
      compress. */
  function ScaledImageBytesFromBytes(imageBytes: Bytes, boundsOf: Bytes -> Point, decodeBytes: (Bytes, Options) -> Bitmap,
                                     compress: (Bitmap, FileUtils.CompressFormat, int) -> Bytes,
                                     targetW: Int32, targetH: Int32,
                                     format: FileUtils.CompressFormat, quality: Int32): (r: Result<Bytes, Failure>)
    ensures r.Ok? <==> targetW != 0 && targetH != 0
    ensures r.Ok? ==> r.value == compress(decodeBytes(imageBytes, ScaledOptions(boundsOf(imageBytes), targetW, targetH).value),
                                          format, quality)
  {
    var options :- ScaledOptions(boundsOf(imageBytes), targetW, targetH);
    Ok(compress(decodeBytes(imageBytes, options), format, quality))
  }

  /** `Integer.MIN_VALUE / -1` wraps, so the sample size can be negative. */
  lemma MinValueWraps()
    ensures ScaleFactor(INT_MIN, 10, -1, 1) == Ok(INT_MIN)
  {
  }
}

=== FILE: date_utils.dfy ===
/** `DateUtils.GetDaysBetweenTwoDates`: the difference of two instants, in
    milliseconds, converted to a `TimeUnit` and narrowed to a Java `int`.
    Instants are Java `long` millisecond counts since the epoch. */
module DateUtils {
  import opened Wrappers
  import opened Integers

  /** `java.util.concurrent.TimeUnit`. */
  datatype TimeUnit = NANOSECONDS | MICROSECONDS | MILLISECONDS | SECONDS | MINUTES | HOURS | DAYS {
    /** At least one millisecond long: converting to it divides. */
    predicate Coarse() {
      !(this == NANOSECONDS || this == MICROSECONDS)
    }

    /** Milliseconds in one unit, for the coarse units. */
    function Millis(): (m: nat)
      requires Coarse()
      ensures m >= 1
    {
      match this
      case MILLISECONDS => 1
      case SECONDS => 1000
      case MINUTES => 60_000
      case HOURS => 3_600_000
      case DAYS => 86_400_000
    }

    /** Units in one millisecond, for the fine units. */
    function PerMilli(): (f: nat)
      requires !Coarse()
      ensures f > 1
    {
      if this == NANOSECONDS then 1_000_000 else 1000
    }
  }

  /** `java.util.Date` and `java.util.Calendar`: only the instant they hold. */
  datatype Date = Date(time: Int64)
  datatype Calendar = Calendar(instant: Date) {
    /** `Calendar.getTime()`. */
    function GetTime(): Date {
      instant
    }
  }

  /** `java.text.ParseException`, as raised by the date format. */
  datatype ParseException = ParseException(message: string, errorOffset: int)

  /** The value `x` saturated to the Java `long` range. */
  function Saturate(x: int): Int64 {
    if x > LONG_MAX then LONG_MAX else if x < LONG_MIN then LONG_MIN else x
  }

  /** `unit.convert(millis, MILLISECONDS)`. To a coarse unit the count is
      divided by the unit's length with Java's `/`; to a fine unit it is
      multiplied, and a count beyond `Long.MAX_VALUE / factor` either way
      becomes `Long.MAX_VALUE` or `Long.MIN_VALUE`. */
  function Convert(unit: TimeUnit, millis: Int64): (r: Int64)
    ensures unit.Coarse() ==> Abs(r) <= Abs(millis)
    ensures !unit.Coarse() ==> (r == LONG_MAX <==> millis > LONG_MAX / unit.PerMilli())
    ensures !unit.Coarse() ==> (r == LONG_MIN <==> millis < -(LONG_MAX / unit.PerMilli()))
  {
    if unit.Coarse() then
      QuotShrinks(millis, unit.Millis());
      Quot(millis, unit.Millis())
    else
      var factor := unit.PerMilli();
      var over := LONG_MAX / factor;
      if millis > over then LONG_MAX
      else if millis < -over then LONG_MIN
      else millis * factor
  }

  /** To a coarse unit the quotient is truncated toward zero: the count is
      the number of whole units in the difference, signed like it. */
  lemma ConvertTruncates(unit: TimeUnit, millis: Int64)
    requires unit.Coarse()
    ensures Abs(Convert(unit, millis)) * unit.Millis() <= Abs(millis) < (Abs(Convert(unit, millis)) + 1) * unit.Millis()
    ensures (Convert(unit, millis) > 0 ==> millis > 0) && (Convert(unit, millis) < 0 ==> millis < 0)
  {
    QuotTruncates(millis, unit.Millis());
  }

  /** To a fine unit the threshold test is exactly saturating multiplication. */
  lemma ConvertSaturates(unit: TimeUnit, millis: Int64)
    requires !unit.Coarse()
    ensures Convert(unit, millis) == Saturate(millis * unit.PerMilli())
  {
    if unit == NANOSECONDS {
      assert LONG_MAX / 1_000_000 == 9_223_372_036_854;
    } else {
      assert LONG_MAX / 1000 == 9_223_372_036_854_775;
    }
  }

  /** `GetDaysBetweenTwoDates(Date, Date, TimeUnit)`: the `long` difference
      `end - start` (which wraps), converted, then cast to `int`. */
  function Between(startDate: Date, endDate: Date, unit: TimeUnit): (r: Int32)
    ensures (r - Convert(unit, ToLong(endDate.time - startDate.time))) % 0x1_0000_0000 == 0
  {
    ToInt(Convert(unit, ToLong(endDate.time - startDate.time)))
  }

  /** `GetDaysBetweenTwoDates(Calendar, Calendar, TimeUnit)`. */
  function CalendarsBetween(startCalendar: Calendar, endCalendar: Calendar, unit: TimeUnit): (r: Int32)
    ensures r == Between(startCalendar.GetTime(), endCalendar.GetTime(), unit)
  {
    ToInt(Convert(unit, ToLong(endCalendar.GetTime().time - startCalendar.GetTime().time)))
  }

  /** `GetDaysBetweenTwoDates(SimpleDateFormat, String, String, TimeUnit)`.
      The format's `parse` is a parameter; the start string is parsed
      first, so its exception wins when both fail. */
  function StringsBetween(parse: string -> Result<Date, ParseException>,
                          startDate: string, endDate: string, unit: TimeUnit): (r: Result<Int32, ParseException>)
    ensures r.Ok? <==> parse(startDate).Ok? && parse(endDate).Ok?
    ensures r.Ok? ==> r.value == Between(parse(startDate).value, parse(endDate).value, unit)
    ensures parse(startDate).Err? ==> r == Err(parse(startDate).error)
    ensures parse(startDate).Ok? && parse(endDate).Err? ==> r == Err(parse(endDate).error)
  {
    var date1 :- parse(startDate);
    var date2 :- parse(endDate);
    Ok(ToInt(Convert(unit, ToLong(date2.time - date1.time))))
  }

  /** Equal instants are zero apart in every unit. */
  lemma SameInstant(date: Date, unit: TimeUnit)
    ensures Between(date, date, unit) == 0
  {
  }

  /** Converting to a coarse unit truncates toward zero: less than one unit
      apart, in either direction, is zero units apart. */
  lemma LessThanOneUnit(startDate: Date, endDate: Date, unit: TimeUnit)
    requires unit.Coarse()
    requires Abs(endDate.time - startDate.time) < unit.Millis()
    ensures Between(startDate, endDate, unit) == 0
  {
    var d := endDate.time - startDate.time;
    UnwrappedDifference(startDate, endDate, unit);
    var r := Convert(unit, d);
    ConvertTruncates(unit, d);
    assert Abs(r) * unit.Millis() < unit.Millis();
  }

  /** 23 hours 59 minutes is zero days. */
  lemma AlmostADay(start: Int64)
    requires start <= LONG_MAX - 86_340_000
    ensures Between(Date(start), Date(start + 86_340_000), DAYS) == 0
  {
    LessThanOneUnit(Date(start), Date(start + 86_340_000), DAYS);
  }

  /** Whole days apart, in either order of the instants: a negative `days`,
      an end before the start, gives that negative count. */
  lemma WholeDays(start: Int64, days: int)
    requires INT_MIN <= days <= INT_MAX
    requires IsLong(start + days * 86_400_000)
    ensures Between(Date(start), Date(start + days * 86_400_000), DAYS) == days
  {
    var d := days * 86_400_000;
    assert ToLong(d) == d;
    assert Quot(d, 86_400_000) == days;
  }

  /** The `(int)` cast of a value whose cast is not `Integer.MIN_VALUE`
      commutes with negation. */
  lemma ToIntNeg(x: int)
    requires ToInt(x) != INT_MIN
    ensures ToInt(-x) == -ToInt(x)
  {
    var low := x % 0x1_0000_0000;
    if low == 0 {
      assert (-x) % 0x1_0000_0000 == 0;
    } else {
      assert (-x) % 0x1_0000_0000 == 0x1_0000_0000 - low;
    }
  }

  /** Without saturation, converting commutes with negation. */
  lemma ConvertNeg(unit: TimeUnit, millis: Int64)
    requires millis != LONG_MIN
    requires !unit.Coarse() ==> IsLong(millis * unit.PerMilli())
    ensures Convert(unit, -millis) == -Convert(unit, millis)
  {
    if unit.Coarse() {
      QuotNeg(millis, unit.Millis());
    } else {
      ConvertSaturates(unit, millis);
      ConvertSaturates(unit, -millis);
    }
  }

  /** Swapping the instants negates the result, provided the difference
      neither wraps nor saturates and its cast is not `Integer.MIN_VALUE`. */
  lemma SwapNegates(startDate: Date, endDate: Date, unit: TimeUnit)
    requires LONG_MIN < endDate.time - startDate.time <= LONG_MAX
    requires !unit.Coarse() ==> IsLong((endDate.time - startDate.time) * unit.PerMilli())
    requires Between(startDate, endDate, unit) != INT_MIN
    ensures Between(endDate, startDate, unit) == -Between(startDate, endDate, unit)
  {
    var d := endDate.time - startDate.time;
    var c := Convert(unit, d);
    UnwrappedDifference(startDate, endDate, unit);
    UnwrappedDifference(endDate, startDate, unit);
    assert startDate.time - endDate.time == -d;
    ConvertNeg(unit, d);
    ToIntNeg(c);
    assert Between(endDate, startDate, unit) == ToInt(-c);
  }

  /** A difference that fits a `long` is converted as it is. */
  lemma UnwrappedDifference(startDate: Date, endDate: Date, unit: TimeUnit)
    requires IsLong(endDate.time - startDate.time)
    ensures Between(startDate, endDate, unit) == ToInt(Convert(unit, endDate.time - startDate.time))
  {
  }

  /** The Calendar overload agrees with the Date overload on the same instants. */
  lemma CalendarsAgree(start: Int64, end: Int64, unit: TimeUnit)
    ensures CalendarsBetween(Calendar(Date(start)), Calendar(Date(end)), unit) == Between(Date(start), Date(end), unit)
  {
  }

  /** `Integer.MAX_VALUE + 1` milliseconds wraps to `Integer.MIN_VALUE`. */
  lemma MillisecondsWrap()
    ensures Between(Date(0), Date(0x8000_0000), MILLISECONDS) == INT_MIN
  {
  }

  /** A difference wider than a `long` wraps before it is converted: from
      the earliest to the latest instant is minus one millisecond. */
  lemma DifferenceWraps()
    ensures Between(Date(LONG_MIN), Date(LONG_MAX), MILLISECONDS) == -1
  {
    assert ToLong(LONG_MAX - LONG_MIN) == -1;
    assert Convert(MILLISECONDS, -1) == -1;
  }

  /** A fine unit saturates before the `(int)` cast, whose low 32 bits of
      `Long.MAX_VALUE` are all ones. */
  lemma NanosecondsSaturate()
    ensures Between(Date(0), Date(LONG_MAX), NANOSECONDS) == -1
  {
  }
}

=== FILE: file_utils.dfy ===
/** The path and file-name logic of `FileUtils`: splitting an absolute path
    into directory, name and extension, the extension chosen for a compress
    format, and the names given to new media files. File-system effects are
    left out; the absolute path, the media roots, whether a directory could be
    made and the timestamp are parameters. */
module FileUtils {
  import opened Wrappers
  import opened Strings

  /** `File.separator` on Android. */
  const SEPARATOR: char := '/'

  /** `StringIndexOutOfBoundsException` with the offending index. */
  datatype StringIndexOutOfBounds = StringIndexOutOfBounds(index: int)

  /** The three strings `GetFilePathNameExt` returns, in array order. */
  datatype PathParts = PathParts(directory: string, name: string, extension: string)

  /** Everything up to and including the last separator (empty without one). */
  function Directory(absolutePath: string): (d: string)
    ensures d <= absolutePath
    ensures d == [] || d[|d| - 1] == SEPARATOR
  {
    absolutePath[..LastIndexOf(absolutePath, SEPARATOR) + 1]
  }

  /** Everything after the last separator. */
  function FinalName(absolutePath: string): (n: string)
    ensures SEPARATOR !in n
    ensures Directory(absolutePath) + n == absolutePath
  {
    var slash := LastIndexOf(absolutePath, SEPARATOR);
    var n := absolutePath[slash + 1..];
    assert SEPARATOR !in n by {
      if slash < 0 {
        assert n == absolutePath;
      }
    }
    assert Directory(absolutePath) + n == absolutePath by {
      assert Directory(absolutePath) == absolutePath[..slash + 1];
    }
    n
  }

  /** `fileName.substring(fileName.lastIndexOf("."))`: the last '.' and what
      follows it; `substring(-1)` throws when there is no '.'. */
  function DottedExtension(fileName: string): (r: Result<string, StringIndexOutOfBounds>)
    ensures r.Ok? <==> '.' in fileName
    ensures r.Err? ==> r.error == StringIndexOutOfBounds(-1)
    ensures r.Ok? ==> |r.value| >= 1 && r.value[0] == '.' && '.' !in r.value[1..]
    ensures r.Ok? ==> EndsWith(fileName, r.value)
  {
    var dot := LastIndexOf(fileName, '.');
    if dot < 0 then Err(StringIndexOutOfBounds(dot)) else Ok(fileName[dot..])
  }

  /** `GetFilePathNameExt`: the directory up to and including the last
      separator, the final name with every occurrence of "." + extension
      removed, and the extension after the last '.' of the final name. */
  function FilePathNameExt(absolutePath: string): (r: Result<PathParts, StringIndexOutOfBounds>)
    ensures r.Ok? <==> '.' in FinalName(absolutePath)
    ensures r.Err? ==> r.error == StringIndexOutOfBounds(-1)
    ensures r.Ok? ==> r.value.directory + FinalName(absolutePath) == absolutePath
    ensures r.Ok? ==> r.value.directory == [] || r.value.directory[|r.value.directory| - 1] == SEPARATOR
    ensures r.Ok? ==> '.' !in r.value.extension && SEPARATOR !in r.value.extension
    ensures r.Ok? ==> EndsWith(FinalName(absolutePath), "." + r.value.extension)
  {
    var fileName := FinalName(absolutePath);
    match DottedExtension(fileName)
    case Err(e) => Err(e)
    case Ok(dottedExt) =>
      var ext := dottedExt[1..];
      ExtensionSuffix(fileName, dottedExt);
      Ok(PathParts(Directory(absolutePath), Replace(fileName, dottedExt, ""), ext))
  }

  lemma ExtensionSuffix(fileName: string, dottedExt: string)
    requires 1 <= |dottedExt| && EndsWith(fileName, dottedExt)
    requires dottedExt[0] == '.' && SEPARATOR !in fileName
    ensures dottedExt == ['.'] + dottedExt[1..]
    ensures SEPARATOR !in dottedExt[1..]
  {
    var ext := dottedExt[1..];
    forall k | 0 <= k < |ext| ensures ext[k] != SEPARATOR {
      assert ext[k] == fileName[|fileName| - |dottedExt| + 1 + k];
    }
  }

  /** `s.endsWith(t)`. */
  predicate EndsWith(s: string, t: string) {
    |t| <= |s| && forall k :: 0 <= k < |t| ==> s[|s| - |t| + k] == t[k]
  }

  /** `directory + n` splits at the end of `directory` when `n` has no separator. */
  lemma SplitAfterDirectory(directory: string, n: string)
    requires directory == [] || directory[|directory| - 1] == SEPARATOR
    requires SEPARATOR !in n
    ensures Directory(directory + n) == directory
    ensures FinalName(directory + n) == n
  {
    var path := directory + n;
    if directory == [] {
      assert path == n;
    } else {
      LastIndexOfAppend(directory, n, SEPARATOR);
      assert path[|directory|..] == n;
      assert path[..|directory|] == directory;
    }
  }

  /** `base + "." + extension` with no other '.' has that extension. */
  lemma SplitAtDot(base: string, extension: string)
    requires '.' !in base && '.' !in extension
    ensures DottedExtension(base + "." + extension) == Ok("." + extension)
    ensures Replace(base + "." + extension, "." + extension, "") == base
  {
    ExtensionAfterLastDot(base, extension);
    DropDottedExtension(base, extension);
  }

  lemma DropDottedExtension(base: string, extension: string)
    requires '.' !in base
    ensures Replace(base + "." + extension, "." + extension, "") == base
  {
    assert base + "." + extension == base + ("." + extension);
    RemoveTrailing(base, "." + extension);
  }

  /** The dotted extension is what follows the last '.', whatever `base` holds. */
  lemma ExtensionAfterLastDot(base: string, extension: string)
    requires '.' !in extension
    ensures DottedExtension(base + "." + extension) == Ok("." + extension)
  {
    var n := base + "." + extension;
    LastIndexOfAppend(base + ".", extension, '.');
    assert n[|base|..] == "." + extension;
  }

  /** A final name whose dotted extension and name are known splits into
      them behind any directory. */
  lemma PartsOfName(directory: string, fileName: string, base: string, extension: string)
    requires directory == [] || directory[|directory| - 1] == SEPARATOR
    requires SEPARATOR !in fileName
    requires DottedExtension(fileName) == Ok("." + extension)
    requires Replace(fileName, "." + extension, "") == base
    ensures FilePathNameExt(directory + fileName) == Ok(PathParts(directory, base, extension))
  {
    SplitAfterDirectory(directory, fileName);
    assert ("." + extension)[1..] == extension;
  }

  /** Splitting `directory + base + "." + extension`, with no '.' or separator
      in `base` or `extension`, gives back the three parts. */
  lemma PartsOfPath(directory: string, base: string, extension: string)
    requires directory == [] || directory[|directory| - 1] == SEPARATOR
    requires SEPARATOR !in base && '.' !in base && SEPARATOR !in extension && '.' !in extension
    ensures FilePathNameExt(directory + (base + "." + extension)) == Ok(PathParts(directory, base, extension))
  {
    SplitAtDot(base, extension);
    PartsOfName(directory, base + "." + extension, base, extension);
  }

  /** With exactly one '.' in the final name, name and extension put back
      together give the final name. */
  lemma OneDotRoundTrip(absolutePath: string, base: string, extension: string)
    requires FinalName(absolutePath) == base + "." + extension
    requires '.' !in base && '.' !in extension
    ensures FilePathNameExt(absolutePath).Ok?
    ensures var p := FilePathNameExt(absolutePath).value;
      p.name + "." + p.extension == FinalName(absolutePath)
  {
    NoSeparatorInParts(base, extension);
    PartsOfPath(Directory(absolutePath), base, extension);
  }

  lemma NoSeparatorInParts(base: string, extension: string)
    requires SEPARATOR !in base + "." + extension
    ensures SEPARATOR !in base && SEPARATOR !in extension
  {
    var n := base + "." + extension;
    assert forall k | 0 <= k < |base| :: base[k] == n[k];
    assert forall k | 0 <= k < |extension| :: extension[k] == n[|base| + 1 + k];
  }

  /** The pieces, each followed by `dotted`: a final name in which the
      dotted extension occurs once after every piece. */
  function Tagged(pieces: seq<string>, dotted: string): string {
    if pieces == [] then [] else pieces[0] + dotted + Tagged(pieces[1..], dotted)
  }

  /** The pieces run together. */
  function Concat(pieces: seq<string>): string {
    if pieces == [] then [] else pieces[0] + Concat(pieces[1..])
  }

  /** The first occurrence of `dotted` in `piece + dotted` is the appended
      one: `piece` may hold '.' and even part of `dotted`, as "archive.tar"
      does for ".gz" or ".bak" for ".txt". */
  predicate FirstAtEnd(piece: string, dotted: string) {
    forall k :: 0 <= k < |piece| ==> !OccursAt(piece + dotted, dotted, k)
  }

  /** `replace(dotted, "")` removes every occurrence of `dotted` and keeps
      everything between them. */
  lemma {:induction false} ReplaceTagged(pieces: seq<string>, dotted: string)
    requires |dotted| > 0
    requires forall i :: 0 <= i < |pieces| ==> FirstAtEnd(pieces[i], dotted)
    ensures Replace(Tagged(pieces, dotted), dotted, "") == Concat(pieces)
  {
    if pieces != [] {
      var p, rest := pieces[0], Tagged(pieces[1..], dotted);
      assert Tagged(pieces, dotted) == p + (dotted + rest);
      FirstAtEndExtends(p, dotted, rest);
      ReplaceSkips(p, dotted + rest, dotted, "");
      ReplaceLeading(dotted, rest, "");
      ReplaceTagged(pieces[1..], dotted);
      assert "" + Replace(rest, dotted, "") == Replace(rest, dotted, "");
    }
  }

  /** Whatever follows `piece + dotted`, `dotted` does not start inside `piece`. */
  lemma FirstAtEndExtends(piece: string, dotted: string, rest: string)
    requires FirstAtEnd(piece, dotted)
    ensures forall k :: 0 <= k < |piece| ==> !OccursAt(piece + (dotted + rest), dotted, k)
  {
    var s := piece + dotted;
    assert piece + (dotted + rest) == s + rest;
    forall k | 0 <= k < |piece|
      ensures !OccursAt(s + rest, dotted, k)
    {
      assert !OccursAt(s, dotted, k);
      assert (s + rest)[k..k + |dotted|] == s[k..k + |dotted|];
    }
  }

  /** A piece without the first character of `dotted` qualifies. */
  lemma FirstAtEndOfPlain(piece: string, dotted: string)
    requires |dotted| > 0 && dotted[0] !in piece
    ensures FirstAtEnd(piece, dotted)
  {
    FirstCharAbsent(piece, dotted, dotted);
  }

  /** The last piece and its `dotted` end the tagged text. */
  lemma {:induction false} TaggedLast(pieces: seq<string>, dotted: string)
    requires |pieces| > 0
    ensures Tagged(pieces, dotted) == Tagged(pieces[..|pieces| - 1], dotted) + pieces[|pieces| - 1] + dotted
  {
    var init := pieces[..|pieces| - 1];
    if |pieces| == 1 {
      assert init == [];
    } else {
      TaggedLast(pieces[1..], dotted);
      assert pieces[1..][..|pieces| - 2] == init[1..];
      assert init[0] == pieces[0];
      assert Tagged(init, dotted) == pieces[0] + dotted + Tagged(init[1..], dotted);
    }
  }

  /** A character in neither the pieces nor `dotted` is not in the tagged text. */
  lemma {:induction false} TaggedExcludes(pieces: seq<string>, dotted: string, c: char)
    requires c !in dotted
    requires forall i :: 0 <= i < |pieces| ==> c !in pieces[i]
    ensures c !in Tagged(pieces, dotted)
  {
    if pieces != [] {
      TaggedExcludes(pieces[1..], dotted, c);
    }
  }

  /** The name part loses every occurrence of the dotted extension, not just
      the last, and keeps what lies between them, other dots included:
      "a.txt.txt.txt" has name "a", "a.txtb.txt" has name "ab" and
      "archive.tar.gz" has name "archive.tar". */
  lemma RepeatedExtension(directory: string, pieces: seq<string>, extension: string)
    requires directory == [] || directory[|directory| - 1] == SEPARATOR
    requires |pieces| >= 1
    requires forall i :: 0 <= i < |pieces| ==> FirstAtEnd(pieces[i], "." + extension) && SEPARATOR !in pieces[i]
    requires '.' !in extension && SEPARATOR !in extension
    ensures FilePathNameExt(directory + Tagged(pieces, "." + extension))
         == Ok(PathParts(directory, Concat(pieces), extension))
  {
    var dotted := "." + extension;
    var n := Tagged(pieces, dotted);
    TaggedLast(pieces, dotted);
    var front := Tagged(pieces[..|pieces| - 1], dotted) + pieces[|pieces| - 1];
    assert n == front + "." + extension;
    ExtensionAfterLastDot(front, extension);
    ReplaceTagged(pieces, dotted);
    TaggedExcludes(pieces, dotted, SEPARATOR);
    PartsOfName(directory, n, Concat(pieces), extension);
  }

  lemma NoSeparatorIn(base: string, extension: string)
    requires SEPARATOR !in base && SEPARATOR !in extension
    ensures SEPARATOR !in base + "." + extension + "." + extension
  {
  }

  lemma DoubledName(base: string, extension: string)
    requires '.' !in extension
    ensures DottedExtension(base + "." + extension + "." + extension) == Ok("." + extension)
  {
    ExtensionAfterLastDot(base + "." + extension, extension);
  }

  lemma DoubledNameReplace(base: string, extension: string)
    requires '.' !in base
    ensures Replace(base + "." + extension + "." + extension, "." + extension, "") == base
  {
    var dotted := "." + extension;
    var n := base + "." + extension + "." + extension;
    assert n == base + (dotted + dotted);
    FirstCharAbsent(base, dotted + dotted, dotted);
    ReplaceSkips(base, dotted + dotted, dotted, "");
    ReplaceLeading(dotted, dotted, "");
    ReplaceLeading(dotted, [], "");
    assert dotted + [] == dotted;
  }

  lemma DoubledExtension()
    ensures FilePathNameExt("/sdcard/a.txt.txt") == Ok(PathParts("/sdcard/", "a", "txt"))
  {
    var n := "a" + "." + "txt" + "." + "txt";
    DoubledName("a", "txt");
    DoubledNameReplace("a", "txt");
    NoSeparatorIn("a", "txt");
    PartsOfName("/sdcard/", n, "a", "txt");
    DoubledExtensionPath();
  }

  lemma DoubledExtensionPath()
    ensures "/sdcard/" + ("a" + "." + "txt" + "." + "txt") == "/sdcard/a.txt.txt"
  {
  }

  /** Occurrences apart from the last are removed too: "a.txtb.txt" has
      name "ab". */
  lemma InterleavedExtension()
    ensures FilePathNameExt("/sdcard/a.txtb.txt") == Ok(PathParts("/sdcard/", "ab", "txt"))
  {
    var pieces := ["a", "b"];
    assert "." + "txt" == ".txt";
    FirstAtEndOfPlain("a", ".txt");
    FirstAtEndOfPlain("b", ".txt");
    RepeatedExtension("/sdcard/", pieces, "txt");
    InterleavedPieces();
  }

  lemma InterleavedPieces()
    ensures "/sdcard/" + Tagged(["a", "b"], ".txt") == "/sdcard/a.txtb.txt"
    ensures Concat(["a", "b"]) == "ab"
  {
    assert ["a", "b"][1..] == ["b"];
    assert ["b"][1..] == [];
  }

  /** A dot that does not start the extension stays in the name:
      "archive.tar.gz" has name "archive.tar" and extension "gz". */
  lemma ArchiveExtension()
    ensures FilePathNameExt("/sdcard/archive.tar.gz") == Ok(PathParts("/sdcard/", "archive.tar", "gz"))
  {
    assert "." + "gz" == ".gz";
    ArchivePieces();
    RepeatedExtension("/sdcard/", ["archive.tar"], "gz");
  }

  lemma ArchivePieces()
    ensures FirstAtEnd("archive.tar", ".gz")
    ensures "/sdcard/" + Tagged(["archive.tar"], ".gz") == "/sdcard/archive.tar.gz"
    ensures Concat(["archive.tar"]) == "archive.tar"
  {
    var n := "archive.tar" + ".gz";
    forall k | 0 <= k < |"archive.tar"|
      ensures !OccursAt(n, ".gz", k)
    {
      if k == 7 {
        assert n[k + 1] != ".gz"[1];
      } else {
        assert n[k] != '.';
      }
    }
    assert ["archive.tar"][1..] == [];
  }

  /** Occurrences of the extension and other dots mix: "x.txt.bak.txt" has
      name "x.bak". */
  lemma BackupExtension()
    ensures FilePathNameExt("/sdcard/x.txt.bak.txt") == Ok(PathParts("/sdcard/", "x.bak", "txt"))
  {
    assert "." + "txt" == ".txt";
    BackupPieces();
    RepeatedExtension("/sdcard/", ["x", ".bak"], "txt");
  }

  lemma BackupPieces()
    ensures FirstAtEnd("x", ".txt") && FirstAtEnd(".bak", ".txt")
    ensures "/sdcard/" + Tagged(["x", ".bak"], ".txt") == "/sdcard/x.txt.bak.txt"
    ensures Concat(["x", ".bak"]) == "x.bak"
  {
    FirstAtEndOfPlain("x", ".txt");
    var n := ".bak" + ".txt";
    forall k | 0 <= k < |".bak"|
      ensures !OccursAt(n, ".txt", k)
    {
      if k == 0 {
        assert n[k + 1] != ".txt"[1];
      } else {
        assert n[k] != '.';
      }
    }
    assert ["x", ".bak"][1..] == [".bak"];
    assert [".bak"][1..] == [];
  }

  /** A final name without '.' throws instead of returning, whatever
      directory it is in. */
  lemma NoExtension(directory: string, n: string)
    requires directory == [] || directory[|directory| - 1] == SEPARATOR
    requires SEPARATOR !in n && '.' !in n
    ensures FilePathNameExt(directory + n) == Err(StringIndexOutOfBounds(-1))
  {
    SplitAfterDirectory(directory, n);
  }

  /** `Bitmap.CompressFormat`. */
  datatype CompressFormat = JPEG | PNG | WEBP | WEBP_LOSSY | WEBP_LOSSLESS

  /** The extension `SaveImageBytes` and `SaveImageBitmap` append: "png" for
      PNG, "jpg" for JPEG and for every other format. */
  function Extension(format: CompressFormat): (e: string)
    ensures e == "png" <==> format == PNG
    ensures e == "jpg" <==> format != PNG
  {
    if format == JPEG then "jpg" else if format == PNG then "png" else "jpg"
  }

  /** The file `SaveImageBytes(bytes, path, name, format)` and
      `SaveImageBitmap(bitmap, path, name, format, quality)` write. */
  function SavedImagePath(path: string, name: string, format: CompressFormat): string {
    path + [SEPARATOR] + (name + "." + Extension(format))
  }

  /** A saved image lies directly in `path` and is named after `name` and
      the format's extension. */
  lemma SavedImageFile(path: string, name: string, format: CompressFormat)
    requires SEPARATOR !in name
    ensures Directory(SavedImagePath(path, name, format)) == path + [SEPARATOR]
    ensures FinalName(SavedImagePath(path, name, format)) == name + "." + Extension(format)
  {
    SplitAfterDirectory(path + [SEPARATOR], name + "." + Extension(format));
  }

  /** Splitting a saved image's path gives back its directory, name and extension. */
  lemma SavedImagePathParts(path: string, name: string, format: CompressFormat)
    requires SEPARATOR !in name && '.' !in name
    ensures FilePathNameExt(SavedImagePath(path, name, format))
         == Ok(PathParts(path + [SEPARATOR], name, Extension(format)))
  {
    PartsOfPath(path + [SEPARATOR], name, Extension(format));
  }

  /** `MediaFileType`. */
  datatype MediaFileType = AUDIO | VIDEO | IMAGE

  /** The public directories `Environment.getExternalStoragePublicDirectory`
      returns for music, movies and pictures. */
  datatype MediaRoots = MediaRoots(music: string, movies: string, pictures: string)

  function MediaRoot(roots: MediaRoots, kind: MediaFileType): string {
    match kind
    case AUDIO => roots.music
    case VIDEO => roots.movies
    case IMAGE => roots.pictures
  }

  function Prefix(kind: MediaFileType): string {
    match kind
    case AUDIO => "AU_"
    case VIDEO => "VID_"
    case IMAGE => "IMG_"
  }

  /** The suffix, dot included. */
  function Postfix(kind: MediaFileType): string {
    match kind
    case AUDIO => ".mp3"
    case VIDEO => ".mp4"
    case IMAGE => ".jpg"
  }

  /** The directory a media file goes in: the media root itself for a null or
      empty child directory, otherwise the child inside the root. */
  function MediaStorageDir(roots: MediaRoots, kind: MediaFileType, childDirectory: Option<string>): (d: string)
    ensures childDirectory == None || childDirectory == Some("") ==> d == MediaRoot(roots, kind)
    ensures childDirectory.Some? && childDirectory.value != "" ==>
      d == MediaRoot(roots, kind) + [SEPARATOR] + childDirectory.value
  {
    if childDirectory.None? || childDirectory.value == "" then MediaRoot(roots, kind)
    else MediaRoot(roots, kind) + [SEPARATOR] + childDirectory.value
  }

  /** `CreateMediaFile`: null when the directory neither exists nor can be
      made (`directoryReady` is false), otherwise the directory, a separator,
      and prefix + timestamp + postfix. */
  function CreateMediaFile(roots: MediaRoots, kind: MediaFileType, childDirectory: Option<string>,
                           directoryReady: bool, timestamp: string): (r: Option<string>)
    ensures r.Some? <==> directoryReady
    ensures r.Some? ==> r.value == MediaStorageDir(roots, kind, childDirectory) + [SEPARATOR] + MediaFileName(kind, timestamp)
  {
    if !directoryReady then None
    else Some(MediaStorageDir(roots, kind, childDirectory) + [SEPARATOR] + Prefix(kind) + timestamp + Postfix(kind))
  }

  /** The name of a new media file: AU_<timestamp>.mp3, VID_<timestamp>.mp4
      or IMG_<timestamp>.jpg. */
  function MediaFileName(kind: MediaFileType, timestamp: string): (n: string)
    ensures kind == AUDIO ==> n == "AU_" + timestamp + ".mp3"
    ensures kind == VIDEO ==> n == "VID_" + timestamp + ".mp4"
    ensures kind == IMAGE ==> n == "IMG_" + timestamp + ".jpg"
  {
    Prefix(kind) + timestamp + Postfix(kind)
  }

  /** A media file name splits back into its directory, prefix + timestamp
      and the extension of its kind, for a timestamp like "yyyyMMdd_HHmmss". */
  lemma MediaFileParts(roots: MediaRoots, kind: MediaFileType, childDirectory: Option<string>, timestamp: string)
    requires SEPARATOR !in timestamp && '.' !in timestamp
    ensures var f := CreateMediaFile(roots, kind, childDirectory, true, timestamp).value;
      FilePathNameExt(f) == Ok(PathParts(MediaStorageDir(roots, kind, childDirectory) + [SEPARATOR],
                                         Prefix(kind) + timestamp, Postfix(kind)[1..]))
  {
    var dir := MediaStorageDir(roots, kind, childDirectory) + [SEPARATOR];
    var base := Prefix(kind) + timestamp;
    var ext := Postfix(kind)[1..];
    MediaFileNameParts(kind, timestamp);
    PartsOfPath(dir, base, ext);
  }

  lemma MediaFileNameParts(kind: MediaFileType, timestamp: string)
    ensures MediaFileName(kind, timestamp) == (Prefix(kind) + timestamp) + "." + Postfix(kind)[1..]
    ensures SEPARATOR !in Prefix(kind) && '.' !in Prefix(kind)
    ensures SEPARATOR !in Postfix(kind)[1..] && '.' !in Postfix(kind)[1..]
  {
    assert Postfix(kind) == "." + Postfix(kind)[1..];
  }

  /** `NullPointerException` from `Objects.requireNonNull`. */
  datatype NullPointerException = NullPointerException

  /** The file the one-argument `SaveImageBytes` writes: a new IMAGE media
      file directly in the pictures root; a null file throws. */
  function DefaultImageFile(roots: MediaRoots, directoryReady: bool, timestamp: string): (r: Result<string, NullPointerException>)
    ensures r.Err? <==> !directoryReady
    ensures r.Ok? ==> r.value == roots.pictures + [SEPARATOR] + "IMG_" + timestamp + ".jpg"
  {
    match CreateMediaFile(roots, IMAGE, Some(""), directoryReady, timestamp)
    case None => Err(NullPointerException)
    case Some(f) => Ok(f)
  }
}

=== FILE: hash_utils.dfy ===
/** `HashUtils.GetKeyHashFromSHA1`: a colon-separated hexadecimal certificate
    fingerprint turned into the Base64 key hash a login provider asks for. */
module HashUtils {
  import opened Wrappers
  import opened Strings
  import opened Integers
  import Base64

  /** `NumberFormatException` raised by `Integer.decode` for one segment. */
  datatype NumberFormatException = NumberFormatException(segment: string)

  /** The value of an ASCII hexadecimal digit, either case. */
  function HexDigit(c: char): Option<int> {
    if '0' <= c <= '9' then Some(c as int - '0' as int)
    else if 'a' <= c <= 'f' then Some(c as int - 'a' as int + 10)
    else if 'A' <= c <= 'F' then Some(c as int - 'A' as int + 10)
    else None
  }

  predicate IsHexDigit(c: char) {
    HexDigit(c).Some?
  }

  /** The number a string of hexadecimal digits denotes, most significant first. */
  function HexValue(digits: string): (v: nat)
    requires All(digits, IsHexDigit)
    ensures v < Pow16(|digits|)
  {
    if |digits| == 0 then 0
    else
      var init := digits[..|digits| - 1];
      assert All(init, IsHexDigit) by {
        forall k | 0 <= k < |init| ensures IsHexDigit(init[k]) {
          assert init[k] == digits[k];
        }
      }
      HexValue(init) * 16 + HexDigit(digits[|digits| - 1]).value
  }

  function Pow16(n: nat): (p: nat)
    ensures p >= 1
  {
    if n == 0 then 1 else 16 * Pow16(n - 1)
  }

  /** `Integer.decode("0x" + segment)`: a non-empty run of hexadecimal digits
      (a sign is refused after the radix prefix) whose value fits a Java `int`. */
  function DecodeSegment(segment: string): (r: Result<Int32, NumberFormatException>)
    ensures r.Ok? <==> |segment| > 0 && All(segment, IsHexDigit) && HexValue(segment) <= INT_MAX
    ensures r.Ok? ==> r.value == HexValue(segment)
    ensures r.Err? ==> r.error == NumberFormatException(segment)
  {
    if |segment| > 0 && All(segment, IsHexDigit) && HexValue(segment) <= INT_MAX then
      Ok(HexValue(segment))
    else
      Err(NumberFormatException(segment))
  }

  /** `Integer.byteValue()`: the low eight bits, kept here as the unsigned bit
      pattern the Base64 encoder reads. */
  function LowByte(v: Int32): (b: Base64.Byte)
    ensures (v - b) % 256 == 0
    ensures 0 <= v < 256 ==> b == v
  {
    v % 256
  }

  /** Every segment decoded in order; the first segment that fails stops the loop. */
  function DecodeAll(segments: seq<string>): (r: Result<seq<Base64.Byte>, NumberFormatException>)
    ensures r.Ok? <==> forall k :: 0 <= k < |segments| ==> DecodeSegment(segments[k]).Ok?
    ensures r.Ok? ==> |r.value| == |segments|
    ensures r.Ok? ==> forall k :: 0 <= k < |segments| ==> r.value[k] == DecodeSegment(segments[k]).value % 256
    ensures r.Err? ==> exists k :: 0 <= k < |segments| && r.error.segment == segments[k]
                        && DecodeSegment(segments[k]).Err?
                        && forall j :: 0 <= j < k ==> DecodeSegment(segments[j]).Ok?
  {
    if |segments| == 0 then Ok([])
    else
      match DecodeSegment(segments[0])
      case Err(e) => Err(e)
      case Ok(v) =>
        match DecodeAll(segments[1..])
        case Err(e) =>
          ghost var k :| 0 <= k < |segments[1..]| && e.segment == segments[1..][k]
            && DecodeSegment(segments[1..][k]).Err?
            && forall j :: 0 <= j < k ==> DecodeSegment(segments[1..][j]).Ok?;
          assert segments[k + 1] == segments[1..][k];
          Err(e)
        case Ok(rest) =>
          assert forall k :: 1 <= k < |segments| ==> segments[k] == segments[1..][k - 1];
          Ok([LowByte(v)] + rest)
  }

  /** `GetKeyHashFromSHA1`: split on ':', decode each segment to a byte, and
      Base64-encode the bytes without line breaks. The first segment that does
      not decode raises its `NumberFormatException` and nothing is returned. */
  function KeyHashFromSha1(sha1Code: string): (r: Result<string, NumberFormatException>)
    ensures var segments := Split(sha1Code, ':');
      r.Ok? <==> forall k :: 0 <= k < |segments| ==> DecodeSegment(segments[k]).Ok?
    ensures var segments := Split(sha1Code, ':');
      r.Ok? ==> |r.value| == 4 * ((|segments| + 2) / 3)
    ensures var segments := Split(sha1Code, ':');
      r.Ok? ==> && Base64.Decode(r.value).Some?
                && |Base64.Decode(r.value).value| == |segments|
                && forall k :: 0 <= k < |segments| ==>
                     Base64.Decode(r.value).value[k] == DecodeSegment(segments[k]).value % 256
    ensures var segments := Split(sha1Code, ':');
      r.Err? ==> exists k :: 0 <= k < |segments| && r.error.segment == segments[k]
                   && DecodeSegment(segments[k]).Err?
                   && forall j :: 0 <= j < k ==> DecodeSegment(segments[j]).Ok?
  {
    var bytes :- DecodeAll(Split(sha1Code, ':'));
    Base64.DecodeEncode(bytes);
    Ok(Base64.Encode(bytes))
  }

  /** Letter case of the digits does not matter: `"ef"` and `"EF"` decode alike. */
  lemma {:induction false} HexValueIgnoresCase(digits: string)
    requires All(digits, IsHexDigit)
    ensures All(Upper(digits), IsHexDigit)
    ensures HexValue(Upper(digits)) == HexValue(digits)
    decreases |digits|
  {
    var up := Upper(digits);
    assert forall k :: 0 <= k < |digits| ==> HexDigit(up[k]) == HexDigit(digits[k]);
    if |digits| > 0 {
      var init := digits[..|digits| - 1];
      assert Upper(init) == up[..|up| - 1];
      HexValueIgnoresCase(init);
    }
  }

  lemma DecodeSegmentIgnoresCase(segment: string)
    ensures DecodeSegment(Upper(segment)).Ok? <==> DecodeSegment(segment).Ok?
    ensures DecodeSegment(segment).Ok? ==> DecodeSegment(Upper(segment)).value == DecodeSegment(segment).value
  {
    var up := Upper(segment);
    assert forall k :: 0 <= k < |segment| ==> HexDigit(up[k]) == HexDigit(segment[k]);
    if All(segment, IsHexDigit) {
      HexValueIgnoresCase(segment);
    }
  }

  /** The digit for a value below sixteen, upper or lower case. */
  function HexChar(d: int, upper: bool): (c: char)
    requires 0 <= d < 16
    ensures HexDigit(c) == Some(d)
  {
    if d < 10 then ('0' as int + d) as char
    else if upper then ('A' as int + d - 10) as char
    else ('a' as int + d - 10) as char
  }

  /** The two-digit segment of one byte in a printed fingerprint. */
  function HexPair(b: Base64.Byte, upper: bool): (s: string)
    ensures DecodeSegment(s) == Ok(b)
    ensures ':' !in s
  {
    var s := [HexChar(b / 16, upper), HexChar(b % 16, upper)];
    assert All(s, IsHexDigit);
    assert s[..1][..0] == [];
    assert HexValue(s[..1]) == b / 16;
    assert HexValue(s) == b;
    s
  }

  /** A digest printed the way key tools print it: two hexadecimal digits per
      byte, separated by ':'. */
  function Fingerprint(digest: seq<Base64.Byte>, upper: bool): string
    requires |digest| > 0
  {
    Join(Pairs(digest, upper), ':')
  }

  function Pairs(digest: seq<Base64.Byte>, upper: bool): (parts: seq<string>)
    ensures |parts| == |digest|
    ensures forall k :: 0 <= k < |parts| ==> ':' !in parts[k] && DecodeSegment(parts[k]) == Ok(digest[k])
  {
    seq(|digest|, k requires 0 <= k < |digest| => HexPair(digest[k], upper))
  }

  /** A printed fingerprint, in either letter case, yields the Base64 of the digest. */
  lemma KeyHashOfFingerprint(digest: seq<Base64.Byte>, upper: bool)
    requires |digest| > 0
    ensures KeyHashFromSha1(Fingerprint(digest, upper)) == Ok(Base64.Encode(digest))
  {
    var parts := Pairs(digest, upper);
    assert Fingerprint(digest, upper) == Join(parts, ':');
    SplitJoin(parts, ':');
    DecodePairs(digest, parts);
  }

  lemma {:induction false} DecodePairs(digest: seq<Base64.Byte>, parts: seq<string>)
    requires |parts| == |digest|
    requires forall k :: 0 <= k < |parts| ==> DecodeSegment(parts[k]) == Ok(digest[k])
    ensures DecodeAll(parts) == Ok(digest)
    decreases |parts|
  {
    if |parts| > 0 {
      DecodePairs(digest[1..], parts[1..]);
      assert digest == [LowByte(digest[0])] + digest[1..];
    }
  }

  /** A SHA-1 fingerprint (twenty segments) gives 28 characters, the last one '='. */
  lemma Sha1KeyHashShape(digest: seq<Base64.Byte>, upper: bool)
    requires |digest| == 20
    ensures KeyHashFromSha1(Fingerprint(digest, upper)).Ok?
    ensures |KeyHashFromSha1(Fingerprint(digest, upper)).value| == 28
    ensures KeyHashFromSha1(Fingerprint(digest, upper)).value[27] == '='
    ensures KeyHashFromSha1(Fingerprint(digest, upper)).value[26] != '='
  {
    KeyHashOfFingerprint(digest, upper);
    Base64.Sha1Length(digest);
  }

  /** Only separators: every segment is a trailing empty one, so no bytes
      and empty text. */
  lemma OnlySeparators(sha1Code: string)
    requires |sha1Code| > 0
    requires forall k :: 0 <= k < |sha1Code| ==> sha1Code[k] == ':'
    ensures KeyHashFromSha1(sha1Code) == Ok("")
  {
    assert sha1Code[0] == ':';
    SeparatorPieces(sha1Code);
    DropAllEmpty(Pieces(sha1Code, ':'));
    NoSegments(sha1Code);
  }

  /** Without segments there are no bytes and the key hash is empty. */
  lemma NoSegments(sha1Code: string)
    requires Split(sha1Code, ':') == []
    ensures KeyHashFromSha1(sha1Code) == Ok("")
  {
    assert DecodeAll([]) == Ok([]);
  }

  lemma {:induction false} SeparatorPieces(s: string)
    requires forall k :: 0 <= k < |s| ==> s[k] == ':'
    ensures forall k :: 0 <= k < |Pieces(s, ':')| ==> Pieces(s, ':')[k] == []
    decreases |s|
  {
    if |s| > 0 {
      assert IndexOf(s, ':') == 0;
      SeparatorPieces(s[1..]);
    }
  }

  lemma {:induction false} DropAllEmpty(parts: seq<string>)
    requires forall k :: 0 <= k < |parts| ==> parts[k] == []
    ensures DropTrailingEmpty(parts) == []
    decreases |parts|
  {
    if |parts| > 0 {
      DropAllEmpty(parts[..|parts| - 1]);
    }
  }

  /** The empty input is one empty segment, which `Integer.decode` refuses. */
  lemma EmptyInput()
    ensures KeyHashFromSha1("") == Err(NumberFormatException(""))
  {
  }

  /** A letter outside the hexadecimal range fails the whole conversion. */
  lemma NonHexSegment()
    ensures KeyHashFromSha1("EF:H6:ED") == Err(NumberFormatException("H6"))
  {
    SplitExample();
    FirstFailure();
  }

  lemma FirstFailure()
    ensures DecodeAll(["EF", "H6", "ED"]) == Err(NumberFormatException("H6"))
  {
    assert DecodeSegment("EF").Ok?;
    assert !IsHexDigit("H6"[0]);
    assert DecodeSegment("H6").Err?;
    assert ["EF", "H6", "ED"][1..] == ["H6", "ED"];
  }

  lemma SplitExample()
    ensures Split("EF:H6:ED", ':') == ["EF", "H6", "ED"]
  {
    assert Join(["EF", "H6", "ED"], ':') == "EF:H6:ED";
    SplitJoin(["EF", "H6", "ED"], ':');
  }
}

=== FILE: integers.dfy ===
/** Java's fixed-width integer arithmetic, written out over unbounded `int`. */
module Integers {

  const INT_MIN: int := -0x8000_0000
  const INT_MAX: int := 0x7FFF_FFFF
  const LONG_MIN: int := -0x8000_0000_0000_0000
  const LONG_MAX: int := 0x7FFF_FFFF_FFFF_FFFF

  predicate IsInt(x: int) {
    INT_MIN <= x <= INT_MAX
  }

  predicate IsLong(x: int) {
    LONG_MIN <= x <= LONG_MAX
  }

  type Int32 = x: int | INT_MIN <= x <= INT_MAX
  type Int64 = x: int | LONG_MIN <= x <= LONG_MAX

  /** The `(int)` cast of a Java `long`, and wrap-around of `int` arithmetic:
      the 32-bit value with the same low 32 bits as `x`. */
  function ToInt(x: int): (r: Int32)
    ensures (r - x) % 0x1_0000_0000 == 0
    ensures IsInt(x) ==> r == x
  {
    var low := x % 0x1_0000_0000;
    if low <= INT_MAX then low else low - 0x1_0000_0000
  }

  /** Wrap-around of Java `long` arithmetic: the 64-bit value with the same
      low 64 bits as `x`. */
  function ToLong(x: int): (r: Int64)
    ensures (r - x) % 0x1_0000_0000_0000_0000 == 0
    ensures IsLong(x) ==> r == x
  {
    var low := x % 0x1_0000_0000_0000_0000;
    if low <= LONG_MAX then low else low - 0x1_0000_0000_0000_0000
  }

  function Abs(x: int): nat {
    if x < 0 then -x else x
  }

  /** Java's integer division `/`: the quotient truncated toward zero
      (Dafny's own `/` is Euclidean). The caller rules out a zero divisor;
      the one overflowing case of 32- or 64-bit division is the caller's. */
  function Quot(a: int, b: int): (q: int)
    requires b != 0
    ensures a >= 0 && b > 0 ==> q == a / b
    ensures 0 <= a < b ==> q == 0
  {
    if b > 0 then
      (if a >= 0 then a / b else -((-a) / b))
    else
      (if a >= 0 then -(a / -b) else (-a) / (-b))
  }

  /** Truncating division by a positive divisor: the magnitude of the
      quotient is the number of whole divisors in the magnitude of the
      dividend, and the quotient never has the opposite sign. */
  lemma QuotTruncates(a: int, b: int)
    requires b > 0
    ensures Abs(Quot(a, b)) * b <= Abs(a) < (Abs(Quot(a, b)) + 1) * b
    ensures (Quot(a, b) > 0 ==> a > 0) && (Quot(a, b) < 0 ==> a < 0)
  {
    var n := Abs(a);
    assert Abs(Quot(a, b)) == n / b;
    assert n == b * (n / b) + n % b;
  }

  /** Dividing by a positive divisor never grows the magnitude. */
  lemma QuotShrinks(a: int, b: int)
    requires b > 0
    ensures Abs(Quot(a, b)) <= Abs(a)
  {
    var n := Abs(a);
    assert Abs(Quot(a, b)) == n / b;
    MulAtLeast(n / b, b);
    assert n == b * (n / b) + n % b;
  }

  lemma MulAtLeast(q: nat, b: int)
    requires b >= 1
    ensures q <= q * b
  {
  }

  /** Truncating division is odd in its dividend, unlike Euclidean division. */
  lemma QuotNeg(a: int, b: int)
    requires b != 0
    ensures Quot(-a, b) == -Quot(a, b)
  {
  }
}

=== FILE: string_utils.dfy ===
/** The pure string checks of `StringUtils`: length comparison, equality and
    the e-mail format check. The e-mail check is the pattern
    `^[\w\.-]+@([\w\-]+\.)+[A-Z]{2,4}$` compiled case-insensitively and used
    with `matches()`; it is modelled twice, as a deterministic recogniser and
    as the language of the pattern, and the two are proved to agree. */
module StringUtils {
  import opened Wrappers
  import opened Strings

  /* Length and equality */

  /** `CompareType`, the five comparisons `CheckStringLength` switches on. */
  datatype CompareType = MAJOR | MAJOR_EQUALS | MINOR | MINOR_EQUALS | EQUALS

  /** The orderings of a length against the number checked, as the sign of
      their difference. */
  function Sign(x: int): int {
    if x < 0 then -1 else if x == 0 then 0 else 1
  }

  /** The orderings each comparison accepts: "MAJOR" is longer, "MINOR" is
      shorter, and the `_EQUALS` forms also accept equal length. */
  function Accepted(compareType: CompareType): set<int> {
    match compareType
    case MAJOR => {1}
    case MAJOR_EQUALS => {0, 1}
    case MINOR => {-1}
    case MINOR_EQUALS => {-1, 0}
    case EQUALS => {0}
  }

  /** `CheckStringLength`: compares the length of `baseString` with
      `lengthToCheck` in the way `compareType` names. */
  function CheckStringLength(baseString: string, lengthToCheck: int, compareType: CompareType): (r: bool)
    ensures r <==> Sign(|baseString| - lengthToCheck) in Accepted(compareType)
  {
    match compareType
    case MAJOR => |baseString| > lengthToCheck
    case MAJOR_EQUALS => |baseString| >= lengthToCheck
    case MINOR => |baseString| < lengthToCheck
    case MINOR_EQUALS => |baseString| <= lengthToCheck
    case EQUALS => |baseString| == lengthToCheck
  }

  /** Exactly one of MAJOR, MINOR and EQUALS holds; MAJOR means longer,
      MINOR shorter and EQUALS the length checked against. */
  lemma LengthTrichotomy(baseString: string, lengthToCheck: int)
    ensures CheckStringLength(baseString, lengthToCheck, EQUALS) <==> |baseString| == lengthToCheck
    ensures CheckStringLength(baseString, lengthToCheck, MAJOR) <==> |baseString| > lengthToCheck
    ensures CheckStringLength(baseString, lengthToCheck, MINOR) <==> |baseString| < lengthToCheck
    ensures CheckStringLength(baseString, lengthToCheck, MAJOR)
        || CheckStringLength(baseString, lengthToCheck, MINOR)
        || CheckStringLength(baseString, lengthToCheck, EQUALS)
    ensures !(CheckStringLength(baseString, lengthToCheck, MAJOR) && CheckStringLength(baseString, lengthToCheck, MINOR))
    ensures !(CheckStringLength(baseString, lengthToCheck, MAJOR) && CheckStringLength(baseString, lengthToCheck, EQUALS))
    ensures !(CheckStringLength(baseString, lengthToCheck, MINOR) && CheckStringLength(baseString, lengthToCheck, EQUALS))
  {
  }

  /** The "or equal" comparisons are the strict one or EQUALS, and each is
      the negation of the opposite strict one. */
  lemma OrEqualsComparisons(baseString: string, lengthToCheck: int)
    ensures CheckStringLength(baseString, lengthToCheck, MAJOR_EQUALS)
        == (CheckStringLength(baseString, lengthToCheck, MAJOR) || CheckStringLength(baseString, lengthToCheck, EQUALS))
    ensures CheckStringLength(baseString, lengthToCheck, MINOR_EQUALS)
        == (CheckStringLength(baseString, lengthToCheck, MINOR) || CheckStringLength(baseString, lengthToCheck, EQUALS))
    ensures CheckStringLength(baseString, lengthToCheck, MAJOR_EQUALS) == !CheckStringLength(baseString, lengthToCheck, MINOR)
    ensures CheckStringLength(baseString, lengthToCheck, MINOR_EQUALS) == !CheckStringLength(baseString, lengthToCheck, MAJOR)
  {
  }

  /** `baseString.equals(compareString)`; a null `compareString` (None) is
      never equal. */
  function CompareEquals(baseString: string, compareString: Option<string>): (r: bool)
    ensures r <==> compareString.Some? && |compareString.value| == |baseString|
                   && forall k :: 0 <= k < |baseString| ==> baseString[k] == compareString.value[k]
  {
    SameCharsEqual(baseString, compareString);
    compareString == Some(baseString)
  }

  /** A string with the same characters as `baseString` is `baseString`. */
  lemma SameCharsEqual(baseString: string, compareString: Option<string>)
    ensures compareString.Some? && |compareString.value| == |baseString|
            && (forall k :: 0 <= k < |baseString| ==> baseString[k] == compareString.value[k])
            ==> compareString == Some(baseString)
  {
    if compareString.Some? && |compareString.value| == |baseString| {
      if forall k :: 0 <= k < |baseString| ==> baseString[k] == compareString.value[k] {
        assert compareString.value == baseString;
      }
    }
  }

  /** `equals` is reflexive and symmetric on non-null strings. */
  lemma CompareEqualsSymmetric(a: string, b: string)
    ensures CompareEquals(a, Some(a))
    ensures CompareEquals(a, Some(b)) == CompareEquals(b, Some(a))
  {
  }

  /* The e-mail pattern */

  /** A character of `[\w\.-]`. */
  predicate IsLocalChar(c: char) { IsWordChar(c) || c == '.' || c == '-' }

  /** A character of `[\w\-]`. */
  predicate IsLabelChar(c: char) { IsWordChar(c) || c == '-' }

  /** `[\w\.-]+` */
  predicate IsLocalPart(s: string) { |s| >= 1 && forall k :: 0 <= k < |s| ==> IsLocalChar(s[k]) }

  /** `[\w\-]+` */
  predicate IsLabel(s: string) { |s| >= 1 && forall k :: 0 <= k < |s| ==> IsLabelChar(s[k]) }

  /** `[A-Z]{2,4}` under CASE_INSENSITIVE: two to four ASCII letters of either case. */
  predicate IsTopLevel(s: string) { 2 <= |s| <= 4 && forall k :: 0 <= k < |s| ==> IsLetter(s[k]) }

  /** The text `([\w\-]+\.)+` matches for the given repetitions. */
  function Groups(labels: seq<string>): string {
    if labels == [] then [] else labels[0] + "." + Groups(labels[1..])
  }

  /** `email` is `local@label1.label2. ... tld` for these parts. */
  predicate IsParse(email: string, local: string, labels: seq<string>, tld: string) {
    && IsLocalPart(local)
    && |labels| >= 1
    && AllLabels(labels)
    && IsTopLevel(tld)
    && email == local + "@" + Groups(labels) + tld
  }

  /** The language of the pattern: some way of cutting `email` into its parts. */
  ghost predicate MatchesPattern(email: string) {
    exists local, labels, tld :: IsParse(email, local, labels, tld)
  }

  /* The recogniser */

  /** `([\w\-]+\.)+` on the whole of `s`, checked character by character:
      only label characters and dots, a label character first, a dot last,
      and never two dots in a row. */
  predicate IsGroups(s: string) {
    && |s| >= 2
    && s[0] != '.'
    && s[|s| - 1] == '.'
    && (forall k :: 0 <= k < |s| ==> IsLabelChar(s[k]) || s[k] == '.')
    && (forall k :: 1 <= k < |s| && s[k] == '.' ==> s[k - 1] != '.')
  }

  /** Everything after the '@': groups up to and including the last '.',
      then two to four letters. */
  predicate IsDomain(d: string) {
    DomainAt(d, LastIndexOf(d, '.'))
  }

  /** `d` is a domain whose last '.' is at `dot`. */
  predicate DomainAt(d: string, dot: int) {
    && 1 <= dot < |d|
    && IsGroups(d[..dot + 1])
    && 2 <= |d| - (dot + 1) <= 4
    && (forall k :: dot < k < |d| ==> IsLetter(d[k]))
  }

  /** `IsEmailValid`: `Pattern.compile(expression, CASE_INSENSITIVE)
      .matcher(email).matches()`. The local part runs to the first '@'. */
  predicate IsEmailValid(email: string)
    ensures IsEmailValid(email) ==> |email| >= 6 && email[0] != '@' && IsLetter(email[|email| - 1])
  {
    EmailAt(email, IndexOf(email, '@'))
  }

  /** `email` is an address whose first '@' is at `at`. */
  predicate EmailAt(email: string, at: int) {
    && 1 <= at < |email|
    && (forall k :: 0 <= k < at ==> IsLocalChar(email[k]))
    && IsDomain(email[at + 1..])
  }

  /* Recogniser and pattern agree */

  lemma GroupsShape(labels: seq<string>)
    requires |labels| >= 1
    ensures |Groups(labels)| >= 1 && Groups(labels)[|Groups(labels)| - 1] == '.'
  {
    var rest := Groups(labels[1..]);
    assert Groups(labels) == labels[0] + "." + rest;
    if |labels| > 1 {
      GroupsShape(labels[1..]);
    }
  }

  /** Every concatenation of labels and dots is recognised. */
  lemma {:induction false} GroupsRecognised(labels: seq<string>)
    requires |labels| >= 1
    requires AllLabels(labels)
    ensures IsGroups(Groups(labels))
  {
    if |labels| > 1 {
      GroupsRecognised(labels[1..]);
    }
    Reassociate3(labels[0], ".", Groups(labels[1..]));
    LabelThenGroups(labels[0], Groups(labels[1..]));
  }

  /** A label, a '.', and nothing or recognised groups are recognised groups. */
  lemma LabelThenGroups(l: string, rest: string)
    requires IsLabel(l) && (rest == [] || IsGroups(rest))
    ensures IsGroups(l + ("." + rest))
  {
    var s := l + ("." + rest);
    assert forall k :: 0 <= k < |l| ==> s[k] == l[k] && l[k] != '.';
    assert s[|l|] == '.';
    assert forall k :: |l| < k < |s| ==> s[k] == rest[k - |l| - 1];
  }

  lemma Reassociate3(a: string, b: string, c: string)
    ensures a + b + c == a + (b + c)
  {
  }

  /** Every recognised groups text is a concatenation of labels and dots. */
  lemma {:induction false} GroupsParsed(s: string) returns (labels: seq<string>)
    requires IsGroups(s)
    ensures |labels| >= 1 && AllLabels(labels)
    ensures s == Groups(labels)
    decreases |s|
  {
    var dot := IndexOf(s, '.');
    var l := s[..dot];
    FirstGroup(s);
    var more: seq<string> := [];
    if dot < |s| - 1 {
      more := GroupsParsed(s[dot + 1..]);
    } else {
      assert s[dot + 1..] == [];
    }
    labels := [l] + more;
    ConsLabels(l, more);
  }

  /** All of `labels` are labels. */
  predicate AllLabels(labels: seq<string>) {
    forall i :: 0 <= i < |labels| ==> IsLabel(labels[i])
  }

  lemma ConsLabels(l: string, more: seq<string>)
    requires IsLabel(l) && AllLabels(more)
    ensures AllLabels([l] + more)
    ensures Groups([l] + more) == l + ("." + Groups(more))
  {
    var labels := [l] + more;
    assert labels[1..] == more;
    assert forall i :: 1 <= i < |labels| ==> labels[i] == more[i - 1];
  }

  /** The first label of recognised groups, and what follows its '.'. */
  lemma FirstGroup(s: string)
    requires IsGroups(s)
    ensures IndexOf(s, '.') >= 1 && IsLabel(s[..IndexOf(s, '.')])
    ensures IndexOf(s, '.') < |s| - 1 ==> IsGroups(s[IndexOf(s, '.') + 1..])
    ensures s == s[..IndexOf(s, '.')] + ("." + s[IndexOf(s, '.') + 1..])
  {
    FirstLabel(s);
    RestGroups(s);
    SplitAround(s, IndexOf(s, '.'));
  }

  lemma FirstLabel(s: string)
    requires IsGroups(s)
    ensures IndexOf(s, '.') >= 1 && IsLabel(s[..IndexOf(s, '.')])
  {
    var dot := IndexOf(s, '.');
    assert forall k :: 0 <= k < dot ==> s[..dot][k] == s[k] && s[k] != '.';
  }

  lemma RestGroups(s: string)
    requires IsGroups(s)
    ensures IndexOf(s, '.') < |s| - 1 ==> IsGroups(s[IndexOf(s, '.') + 1..])
  {
    var dot := IndexOf(s, '.');
    if 0 <= dot < |s| - 1 {
      var rest := s[dot + 1..];
      assert forall k :: 0 <= k < |rest| ==> rest[k] == s[dot + 1 + k];
      assert s[dot + 1] != '.';
    }
  }

  /** A domain cut after a '.' that ends `g`, with no '.' after it, is
      recognised exactly when `g` is groups and the rest a top-level part. */
  lemma DomainSplit(g: string, tld: string)
    requires |g| >= 1 && g[|g| - 1] == '.'
    requires forall k :: 0 <= k < |tld| ==> tld[k] != '.'
    ensures IsDomain(g + tld) <==> IsGroups(g) && IsTopLevel(tld)
  {
    assert '.' !in tld;
    var d := g + tld;
    LastIndexOfAppend(g, tld, '.');
    assert d[..|g|] == g;
    assert forall k :: |g| <= k < |d| ==> d[k] == tld[k - |g|];
  }

  /** An address cut at its first '@' is recognised exactly when the part
      before is a local part and the part after a domain. */
  lemma AddressSplit(email: string, local: string, d: string)
    requires email == local + ("@" + d)
    requires forall k :: 0 <= k < |local| ==> local[k] != '@'
    ensures IsEmailValid(email) <==> IsLocalPart(local) && IsDomain(d)
  {
    assert '@' !in local;
    IndexOfAppend(local, "@" + d, '@');
    assert forall k :: 0 <= k < |local| ==> email[k] == local[k];
    assert email[|local| + 1..] == d;
  }

  lemma NoDotInTopLevel(tld: string)
    requires IsTopLevel(tld)
    ensures forall k :: 0 <= k < |tld| ==> tld[k] != '.'
  {
    assert forall k :: 0 <= k < |tld| ==> IsLetter(tld[k]);
  }

  lemma NoAtInLocalPart(local: string)
    requires IsLocalPart(local)
    ensures forall k :: 0 <= k < |local| ==> local[k] != '@'
  {
    assert forall k :: 0 <= k < |local| ==> IsLocalChar(local[k]);
  }

  lemma Reassociate(local: string, g: string, tld: string)
    ensures local + "@" + g + tld == local + ("@" + (g + tld))
  {
  }

  /** Given a parse, the recogniser accepts. */
  lemma ParseRecognised(email: string, local: string, labels: seq<string>, tld: string)
    requires IsParse(email, local, labels, tld)
    ensures IsEmailValid(email)
  {
    var g := Groups(labels);
    GroupsShape(labels);
    GroupsRecognised(labels);
    NoDotInTopLevel(tld);
    DomainSplit(g, tld);
    Reassociate(local, g, tld);
    NoAtInLocalPart(local);
    AddressSplit(email, local, g + tld);
  }

  /** A recognised domain splits into groups and a top-level part. */
  lemma DomainParsed(d: string) returns (labels: seq<string>, tld: string)
    requires IsDomain(d)
    ensures |labels| >= 1 && AllLabels(labels)
    ensures IsTopLevel(tld) && d == Groups(labels) + tld
  {
    var dot := LastIndexOf(d, '.');
    labels := GroupsParsed(d[..dot + 1]);
    tld := d[dot + 1..];
    assert forall k :: 0 <= k < |tld| ==> tld[k] == d[dot + 1 + k];
    assert d == d[..dot + 1] + tld;
  }

  /** A recognised address has a parse. */
  lemma RecognisedParse(email: string) returns (local: string, labels: seq<string>, tld: string)
    requires IsEmailValid(email)
    ensures IsParse(email, local, labels, tld)
  {
    var at := IndexOf(email, '@');
    local := email[..at];
    var d := email[at + 1..];
    LocalPartOfValid(email);
    labels, tld := DomainParsed(d);
    SplitAround(email, at);
    Reassociate(local, Groups(labels), tld);
  }

  lemma LocalPartOfValid(email: string)
    requires IsEmailValid(email)
    ensures IsLocalPart(email[..IndexOf(email, '@')])
  {
  }

  /** The recogniser accepts exactly the language of the pattern. */
  lemma EmailMatchesPattern(email: string)
    ensures IsEmailValid(email) <==> MatchesPattern(email)
  {
    if IsEmailValid(email) {
      var local, labels, tld := RecognisedParse(email);
    }
    if MatchesPattern(email) {
      var local, labels, tld :| IsParse(email, local, labels, tld);
      ParseRecognised(email, local, labels, tld);
    }
  }

  /* Consequences */

  lemma NoAtInGroups(s: string)
    requires IsGroups(s)
    ensures '@' !in s
  {
    assert forall k :: 0 <= k < |s| ==> s[k] != '@';
  }

  /** A valid address holds exactly one '@'. */
  lemma ExactlyOneAt(email: string)
    requires IsEmailValid(email)
    ensures multiset(email)['@'] == 1
  {
    var at := IndexOf(email, '@');
    NoAtInDomain(email[at + 1..]);
    SplitAround(email, at);
    CountOnce(email[..at], '@', email[at + 1..]);
  }

  lemma CountOnce(a: string, c: char, b: string)
    requires c !in a && c !in b
    ensures multiset(a + ([c] + b))[c] == 1
  {
    assert multiset(a)[c] == 0 && multiset(b)[c] == 0;
  }

  lemma NoAtInDomain(d: string)
    requires IsDomain(d)
    ensures '@' !in d
  {
    var dot := LastIndexOf(d, '.');
    NoAtInGroups(d[..dot + 1]);
    assert forall k :: 0 <= k <= dot ==> d[k] == d[..dot + 1][k];
    assert forall k :: 0 <= k < |d| ==> d[k] != '@';
  }

  /* Case-insensitivity */

  /** `a` and `b` differ at most in the case of ASCII letters. */
  predicate SameUpToCase(a: string, b: string) {
    |a| == |b| && forall k :: 0 <= k < |a| ==> ToUpper(a[k]) == ToUpper(b[k])
  }

  lemma CharClassesIgnoreCase(x: char, y: char)
    requires ToUpper(x) == ToUpper(y)
    ensures IsLocalChar(x) == IsLocalChar(y) && IsLabelChar(x) == IsLabelChar(y) && IsLetter(x) == IsLetter(y)
    ensures x == '@' <==> y == '@'
    ensures x == '.' <==> y == '.'
  {
  }

  /** Strings with `c` at the same positions find it at the same place. */
  lemma SamePositions(a: string, b: string, c: char)
    requires |a| == |b| && forall k :: 0 <= k < |a| ==> (a[k] == c <==> b[k] == c)
    ensures IndexOf(a, c) == IndexOf(b, c) && LastIndexOf(a, c) == LastIndexOf(b, c)
  {
  }

  /** Case differences never move a '@'. */
  lemma SameAt(a: string, b: string)
    requires SameUpToCase(a, b)
    ensures IndexOf(a, '@') == IndexOf(b, '@')
  {
    SameSeparatorPositions(a, b);
    SamePositions(a, b, '@');
  }

  /** Case differences never move a '.'. */
  lemma SameDots(a: string, b: string)
    requires SameUpToCase(a, b)
    ensures IndexOf(a, '.') == IndexOf(b, '.')
    ensures LastIndexOf(a, '.') == LastIndexOf(b, '.')
  {
    SameSeparatorPositions(a, b);
    SamePositions(a, b, '.');
  }

  lemma SameSeparatorPositions(a: string, b: string)
    requires SameUpToCase(a, b)
    ensures forall k :: 0 <= k < |a| ==> (a[k] == '@' <==> b[k] == '@') && (a[k] == '.' <==> b[k] == '.')
  {
    forall k | 0 <= k < |a|
      ensures (a[k] == '@' <==> b[k] == '@') && (a[k] == '.' <==> b[k] == '.')
    {
      CharClassesIgnoreCase(a[k], b[k]);
    }
  }

  lemma LabelCharsIgnoreCase(a: string, b: string, n: nat)
    requires SameUpToCase(a, b) && n <= |a|
    ensures (forall k :: 0 <= k < n ==> IsLabelChar(a[k])) == (forall k :: 0 <= k < n ==> IsLabelChar(b[k]))
  {
    forall k | 0 <= k < n
      ensures IsLabelChar(a[k]) == IsLabelChar(b[k])
    {
      CharClassesIgnoreCase(a[k], b[k]);
    }
  }

  lemma LocalCharsIgnoreCase(a: string, b: string, n: nat)
    requires SameUpToCase(a, b) && n <= |a|
    ensures (forall k :: 0 <= k < n ==> IsLocalChar(a[k])) == (forall k :: 0 <= k < n ==> IsLocalChar(b[k]))
  {
    forall k | 0 <= k < n
      ensures IsLocalChar(a[k]) == IsLocalChar(b[k])
    {
      CharClassesIgnoreCase(a[k], b[k]);
    }
  }

  lemma LettersIgnoreCase(a: string, b: string, dot: nat)
    requires SameUpToCase(a, b)
    ensures (forall k :: dot < k < |a| ==> IsLetter(a[k])) == (forall k :: dot < k < |b| ==> IsLetter(b[k]))
  {
    forall k | dot < k < |a|
      ensures IsLetter(a[k]) == IsLetter(b[k])
    {
      CharClassesIgnoreCase(a[k], b[k]);
    }
  }

  lemma GroupsIgnoreCase(a: string, b: string)
    requires SameUpToCase(a, b)
    ensures IsGroups(a) == IsGroups(b)
  {
    forall k | 0 <= k < |a|
      ensures IsLabelChar(a[k]) == IsLabelChar(b[k]) && (a[k] == '.' <==> b[k] == '.')
    {
      CharClassesIgnoreCase(a[k], b[k]);
    }
  }

  lemma DomainIgnoresCase(a: string, b: string)
    requires SameUpToCase(a, b)
    ensures IsDomain(a) == IsDomain(b)
  {
    if IsDomain(a) {
      DomainTransfers(a, b);
    }
    if IsDomain(b) {
      DomainTransfers(b, a);
    }
  }

  lemma DomainTransfers(a: string, b: string)
    requires SameUpToCase(a, b) && IsDomain(a)
    ensures IsDomain(b)
  {
    SameDots(a, b);
    DomainAtTransfers(a, b, LastIndexOf(a, '.'));
  }

  lemma DomainAtTransfers(a: string, b: string, dot: int)
    requires SameUpToCase(a, b) && DomainAt(a, dot)
    ensures DomainAt(b, dot)
  {
    GroupsPrefixTransfers(a, b, dot + 1);
    LettersIgnoreCase(a, b, dot);
  }

  lemma GroupsPrefixTransfers(a: string, b: string, n: int)
    requires SameUpToCase(a, b) && 0 <= n <= |a| && IsGroups(a[..n])
    ensures IsGroups(b[..n])
  {
    SameUpToCaseSlices(a, b, n);
    GroupsIgnoreCase(a[..n], b[..n]);
  }

  lemma SameUpToCaseSlices(a: string, b: string, n: int)
    requires SameUpToCase(a, b) && 0 <= n <= |a|
    ensures SameUpToCase(a[..n], b[..n]) && SameUpToCase(a[n..], b[n..])
  {
    assert forall k :: 0 <= k < |a| - n ==> a[n..][k] == a[n + k] && b[n..][k] == b[n + k];
  }

  /** CASE_INSENSITIVE: addresses that differ only in the case of ASCII
      letters get the same verdict. */
  lemma EmailIgnoresCase(a: string, b: string)
    requires SameUpToCase(a, b)
    ensures IsEmailValid(a) == IsEmailValid(b)
  {
    if IsEmailValid(a) {
      EmailTransfers(a, b);
    }
    if IsEmailValid(b) {
      EmailTransfers(b, a);
    }
  }

  lemma EmailTransfers(a: string, b: string)
    requires SameUpToCase(a, b) && IsEmailValid(a)
    ensures IsEmailValid(b)
  {
    SameAt(a, b);
    EmailAtTransfers(a, b, IndexOf(a, '@'));
  }

  lemma EmailAtTransfers(a: string, b: string, at: int)
    requires SameUpToCase(a, b) && EmailAt(a, at)
    ensures EmailAt(b, at)
  {
    LocalCharsIgnoreCase(a, b, at);
    SameUpToCaseSlices(a, b, at + 1);
    DomainTransfers(a[at + 1..], b[at + 1..]);
  }

  /** In particular upper-casing an address does not change the verdict. */
  lemma UpperCaseEmail(email: string)
    ensures IsEmailValid(Upper(email)) == IsEmailValid(email)
  {
    assert SameUpToCase(Upper(email), email);
    EmailIgnoresCase(Upper(email), email);
  }

  /* Examples */

  /** A domain needs at least one '.'. */
  lemma NoDotRejected(local: string, d: string)
    requires forall k :: 0 <= k < |local| ==> local[k] != '@'
    requires forall k :: 0 <= k < |d| ==> d[k] != '.'
    ensures !IsEmailValid(local + ("@" + d))
  {
    AddressSplit(local + ("@" + d), local, d);
    assert '.' !in d;
  }

  /** The top-level part has two to four characters. */
  lemma TopLevelLengthRejected(local: string, g: string, tld: string)
    requires forall k :: 0 <= k < |local| ==> local[k] != '@'
    requires |g| >= 1 && g[|g| - 1] == '.'
    requires forall k :: 0 <= k < |tld| ==> tld[k] != '.'
    requires |tld| < 2 || |tld| > 4
    ensures !IsEmailValid(local + ("@" + (g + tld)))
  {
    AddressSplit(local + ("@" + (g + tld)), local, g + tld);
    DomainSplit(g, tld);
  }

  /** The top-level part holds letters only. */
  lemma TopLevelLetterRejected(local: string, g: string, tld: string, k: nat)
    requires forall k :: 0 <= k < |local| ==> local[k] != '@'
    requires |g| >= 1 && g[|g| - 1] == '.'
    requires forall k :: 0 <= k < |tld| ==> tld[k] != '.'
    requires k < |tld| && !IsLetter(tld[k])
    ensures !IsEmailValid(local + ("@" + (g + tld)))
  {
    AddressSplit(local + ("@" + (g + tld)), local, g + tld);
    DomainSplit(g, tld);
  }

  /** Two dots in a row before the top-level part leave an empty label. */
  lemma EmptyLabelRejected(local: string, g: string, tld: string, k: nat)
    requires forall k :: 0 <= k < |local| ==> local[k] != '@'
    requires |g| >= 1 && g[|g| - 1] == '.'
    requires forall k :: 0 <= k < |tld| ==> tld[k] != '.'
    requires 1 <= k < |g| && g[k] == '.' && g[k - 1] == '.'
    ensures !IsEmailValid(local + ("@" + (g + tld)))
  {
    AddressSplit(local + ("@" + (g + tld)), local, g + tld);
    DomainSplit(g, tld);
  }

  lemma RejectsNoDot()
    ensures !IsEmailValid("a@b")
  {
    NoDotRejected("a", "b");
  }

  lemma RejectsShortTopLevel()
    ensures !IsEmailValid("a@b.c")
  {
    TopLevelLengthRejected("a", "b.", "c");
  }

  lemma RejectsEmptyLabel()
    ensures !IsEmailValid("a@b..com")
  {
    EmptyLabelRejected("a", "b..", "com", 2);
    EmptyLabelAddress();
  }

  lemma EmptyLabelAddress()
    ensures "a" + ("@" + ("b.." + "com")) == "a@b..com"
  {
  }

  lemma RejectsDigitInTopLevel()
    ensures !IsEmailValid("a@b.c0m")
  {
    TopLevelLetterRejected("a", "b.", "c0m", 1);
    DigitInTopLevelAddress();
  }

  lemma DigitInTopLevelAddress()
    ensures "a" + ("@" + ("b." + "c0m")) == "a@b.c0m"
  {
  }

  lemma RejectsLongTopLevel()
    ensures !IsEmailValid("a@b.museum")
  {
    TopLevelLengthRejected("a", "b.", "museum");
    LongTopLevelAddress();
  }

  lemma LongTopLevelAddress()
    ensures "a" + ("@" + ("b." + "museum")) == "a@b.museum"
  {
  }

  /** Dots and hyphens in the local part, a hyphen in a label, and an
      upper-case top-level part are all accepted. */
  lemma AcceptsExample()
    ensures IsEmailValid("j.doe@mail-1.Example.ORG")
  {
    ExampleGroups();
    ExampleParts();
    ExampleAddress();
    ParseRecognised("j.doe@mail-1.Example.ORG", "j.doe", ["mail-1", "Example"], "ORG");
  }

  lemma ExampleGroups()
    ensures Groups(["mail-1", "Example"]) == "mail-1.Example."
  {
    assert ["mail-1", "Example"][1..] == ["Example"];
    assert Groups(["Example"]) == "Example.";
  }

  lemma ExampleParts()
    ensures IsLocalPart("j.doe") && AllLabels(["mail-1", "Example"]) && IsTopLevel("ORG")
  {
  }

  lemma ExampleAddress()
    ensures "j.doe" + "@" + "mail-1.Example." + "ORG" == "j.doe@mail-1.Example.ORG"
  {
  }
}

=== FILE: strings.dfy ===
/** The parts of `java.lang.String` the utilities rely on, over `seq<char>`:
    `indexOf`/`lastIndexOf` of a character, `split` on a one-character
    separator, `replace` of a literal target, and the ASCII character classes
    of `java.util.regex` (without the UNICODE_CHARACTER_CLASS flag). */
module Strings {

  /** `s.indexOf(c)`: the first position of `c`, or -1. */
  function IndexOf(s: string, c: char): (r: int)
    ensures -1 <= r < |s|
    ensures r == -1 <==> c !in s
    ensures r >= 0 ==> s[r] == c && c !in s[..r]
  {
    if |s| == 0 then -1
    else if s[0] == c then 0
    else
      var r := IndexOf(s[1..], c);
      assert s[1..][..if r < 0 then 0 else r] == s[1..if r < 0 then 1 else r + 1];
      if r < 0 then -1 else r + 1
  }

  /** `s.lastIndexOf(c)`: the last position of `c`, or -1. */
  function LastIndexOf(s: string, c: char): (r: int)
    ensures -1 <= r < |s|
    ensures r == -1 <==> c !in s
    ensures r >= 0 ==> s[r] == c && c !in s[r + 1..]
  {
    if |s| == 0 then -1
    else if s[|s| - 1] == c then |s| - 1
    else
      var r := LastIndexOf(s[..|s| - 1], c);
      LastIndexOfStep(s, c, r);
      r
  }

  /** A last occurrence in all but the last character, which is not `c`, is
      the last occurrence in all of `s`. */
  lemma LastIndexOfStep(s: string, c: char, r: int)
    requires |s| > 0 && s[|s| - 1] != c && -1 <= r < |s| - 1
    requires r == -1 <==> c !in s[..|s| - 1]
    requires r >= 0 ==> s[..|s| - 1][r] == c && c !in s[..|s| - 1][r + 1..]
    ensures r == -1 <==> c !in s
    ensures r >= 0 ==> s[r] == c && c !in s[r + 1..]
  {
    var init := s[..|s| - 1];
    assert s == init + [s[|s| - 1]];
    if r >= 0 {
      assert s[r + 1..] == init[r + 1..] + [s[|s| - 1]];
    }
  }

  /** The first occurrence of `c` in `a + b` is the first character of `b`
      when `a` has none. */
  lemma IndexOfAppend(a: string, b: string, c: char)
    requires |b| > 0 && b[0] == c && c !in a
    ensures IndexOf(a + b, c) == |a|
  {
    var s := a + b;
    assert s[|a|] == c;
    assert s[..|a|] == a;
  }

  /** `s` cut around its element at `i`. */
  lemma SplitAround(s: string, i: int)
    requires 0 <= i < |s|
    ensures s == s[..i] + ([s[i]] + s[i + 1..])
  {
  }

  /** The last occurrence of `c` in `a + b` is the last character of `a`
      when `b` has none. */
  lemma LastIndexOfAppend(a: string, b: string, c: char)
    requires |a| > 0 && a[|a| - 1] == c && c !in b
    ensures LastIndexOf(a + b, c) == |a| - 1
  {
    var s := a + b;
    assert s[|a| - 1] == c;
    assert s[|a|..] == b;
  }

  /** Every piece of `s` between occurrences of `sep`, empty pieces included. */
  function Pieces(s: string, sep: char): (parts: seq<string>)
    ensures |parts| >= 1
    ensures forall k :: 0 <= k < |parts| ==> sep !in parts[k]
    decreases |s|
  {
    var i := IndexOf(s, sep);
    if i < 0 then [s] else [s[..i]] + Pieces(s[i + 1..], sep)
  }

  /** The pieces put back together, `sep` between neighbours. */
  function Join(parts: seq<string>, sep: char): string
    requires |parts| >= 1
  {
    if |parts| == 1 then parts[0] else parts[0] + [sep] + Join(parts[1..], sep)
  }

  lemma {:induction false} JoinPieces(s: string, sep: char)
    ensures Join(Pieces(s, sep), sep) == s
    decreases |s|
  {
    var i := IndexOf(s, sep);
    if i >= 0 {
      var rest := Pieces(s[i + 1..], sep);
      JoinCons(s[..i], rest, sep);
      JoinPieces(s[i + 1..], sep);
      assert s == s[..i] + [sep] + s[i + 1..];
    }
  }

  lemma JoinCons(first: string, rest: seq<string>, sep: char)
    requires |rest| >= 1
    ensures Join([first] + rest, sep) == first + [sep] + Join(rest, sep)
  {
    assert ([first] + rest)[1..] == rest;
  }

  lemma {:induction false} PiecesJoin(parts: seq<string>, sep: char)
    requires |parts| >= 1
    requires forall k :: 0 <= k < |parts| ==> sep !in parts[k]
    ensures Pieces(Join(parts, sep), sep) == parts
    decreases |parts|
  {
    if |parts| > 1 {
      var rest := Join(parts[1..], sep);
      assert Join(parts, sep) == parts[0] + ([sep] + rest);
      PiecesCons(parts[0], rest, sep);
      PiecesJoin(parts[1..], sep);
      assert parts == [parts[0]] + parts[1..];
    }
  }

  /** A first piece followed by the separator is cut off first. */
  lemma PiecesCons(first: string, rest: string, sep: char)
    requires sep !in first
    ensures Pieces(first + ([sep] + rest), sep) == [first] + Pieces(rest, sep)
  {
    var s := first + ([sep] + rest);
    IndexOfAppend(first, [sep] + rest, sep);
    assert s[..|first|] == first;
    assert s[|first| + 1..] == rest;
  }

  /** `parts` with its trailing empty strings removed. */
  function DropTrailingEmpty(parts: seq<string>): (r: seq<string>)
    ensures r <= parts
    ensures |r| > 0 ==> r[|r| - 1] != []
    ensures forall k :: |r| <= k < |parts| ==> parts[k] == []
  {
    if |parts| == 0 || parts[|parts| - 1] != [] then parts
    else DropTrailingEmpty(parts[..|parts| - 1])
  }

  /** `s.split(sep)` for a separator that is one ordinary character: an input
      without the separator (the empty input included) is returned whole;
      otherwise the pieces with trailing empty ones removed. */
  function Split(s: string, sep: char): (parts: seq<string>)
    ensures forall k :: 0 <= k < |parts| ==> sep !in parts[k]
  {
    if sep !in s then [s] else DropTrailingEmpty(Pieces(s, sep))
  }

  /** `Split` undoes `Join` when the last piece is not empty. */
  lemma SplitJoin(parts: seq<string>, sep: char)
    requires |parts| >= 1 && parts[|parts| - 1] != []
    requires forall k :: 0 <= k < |parts| ==> sep !in parts[k]
    ensures Split(Join(parts, sep), sep) == parts
  {
    PiecesJoin(parts, sep);
  }

  /** `target` occurs in `s` starting at position `k`. */
  predicate OccursAt(s: string, target: string, k: int) {
    0 <= k && k + |target| <= |s| && s[k..k + |target|] == target
  }

  /** `s.replace(target, replacement)`: every occurrence of `target` found by a
      left-to-right scan that resumes after each match is replaced. */
  function Replace(s: string, target: string, replacement: string): (r: string)
    requires |target| > 0
    ensures replacement == target ==> r == s
    ensures (forall k :: !OccursAt(s, target, k)) ==> r == s
    decreases |s|
  {
    if |s| < |target| then s
    else if s[..|target|] == target then
      assert OccursAt(s, target, 0);
      replacement + Replace(s[|target|..], target, replacement)
    else
      assert forall k :: OccursAt(s[1..], target, k) ==> OccursAt(s, target, k + 1);
      [s[0]] + Replace(s[1..], target, replacement)
  }

  /** `Replace` copies a prefix unchanged when the target starts at none of
      its positions, even if the prefix holds the target's first character. */
  lemma {:induction false} ReplaceSkips(u: string, rest: string, target: string, replacement: string)
    requires |target| > 0
    requires forall k :: 0 <= k < |u| ==> !OccursAt(u + rest, target, k)
    ensures Replace(u + rest, target, replacement) == u + Replace(rest, target, replacement)
    decreases |u|
  {
    if |u| == 0 {
      assert u + rest == rest;
    } else {
      var s := u + rest;
      assert !OccursAt(s, target, 0);
      ReplaceMiss(s, target, replacement);
      assert s[1..] == u[1..] + rest;
      MissesShift(u, rest, target);
      ReplaceSkips(u[1..], rest, target, replacement);
      ConsSplit(u, Replace(rest, target, replacement));
    }
  }

  lemma ConsSplit<T>(u: seq<T>, x: seq<T>)
    requires |u| > 0
    ensures [u[0]] + (u[1..] + x) == u + x
  {
    assert u == [u[0]] + u[1..];
  }

  /** Positions without an occurrence stay so when the first character goes. */
  lemma MissesShift(u: string, rest: string, target: string)
    requires |u| > 0
    requires forall k :: 0 <= k < |u| ==> !OccursAt(u + rest, target, k)
    ensures forall k :: 0 <= k < |u| - 1 ==> !OccursAt(u[1..] + rest, target, k)
  {
    var s := u + rest;
    forall k | 0 <= k < |u| - 1
      ensures !OccursAt(u[1..] + rest, target, k)
    {
      assert !OccursAt(s, target, k + 1);
      if k + |target| <= |s| - 1 {
        assert (u[1..] + rest)[k..k + |target|] == s[k + 1..k + 1 + |target|];
      }
    }
  }

  /** A position where the target does not start is copied. */
  lemma ReplaceMiss(s: string, target: string, replacement: string)
    requires |target| > 0 && |s| > 0 && !OccursAt(s, target, 0)
    ensures Replace(s, target, replacement) == [s[0]] + Replace(s[1..], target, replacement)
  {
    if |s| >= |target| {
      assert s[..|target|] != target;
    }
  }

  /** The target cannot start inside a prefix that lacks its first character. */
  lemma FirstCharAbsent(u: string, rest: string, target: string)
    requires |target| > 0 && target[0] !in u
    ensures forall k :: 0 <= k < |u| ==> !OccursAt(u + rest, target, k)
  {
    forall k | 0 <= k < |u|
      ensures !OccursAt(u + rest, target, k)
    {
      assert (u + rest)[k] == u[k];
    }
  }

  /** `Replace` consumes an occurrence at the very start. */
  lemma ReplaceLeading(target: string, rest: string, replacement: string)
    requires |target| > 0
    ensures Replace(target + rest, target, replacement) == replacement + Replace(rest, target, replacement)
  {
    var s := target + rest;
    assert s[..|target|] == target;
    assert s[|target|..] == rest;
  }

  /** Removing a target that starts with a character absent from the text
      before it removes exactly that one trailing occurrence. */
  lemma RemoveTrailing(u: string, target: string)
    requires |target| > 0 && target[0] !in u
    ensures Replace(u + target, target, "") == u
  {
    FirstCharAbsent(u, target, target);
    ReplaceSkips(u, target, target, "");
    ReplaceLeading(target, [], "");
  }

  /* ASCII character classes */

  predicate IsUpper(c: char) { 'A' <= c <= 'Z' }
  predicate IsLower(c: char) { 'a' <= c <= 'z' }
  predicate IsLetter(c: char) { IsUpper(c) || IsLower(c) }
  predicate IsDigit(c: char) { '0' <= c <= '9' }

  /** `\w`: `[a-zA-Z_0-9]`. */
  predicate IsWordChar(c: char) { IsLetter(c) || IsDigit(c) || c == '_' }

  /** Every character of `s` satisfies `p`. */
  predicate All(s: string, p: char -> bool) {
    forall k :: 0 <= k < |s| ==> p(s[k])
  }

  function ToUpper(c: char): (u: char)
    ensures IsLower(c) ==> IsUpper(u)
    ensures !IsLower(c) ==> u == c
  {
    if IsLower(c) then (c as int - 'a' as int + 'A' as int) as char else c
  }

  function ToLower(c: char): (l: char)
    ensures IsUpper(c) ==> IsLower(l)
    ensures !IsUpper(c) ==> l == c
  {
    if IsUpper(c) then (c as int - 'A' as int + 'a' as int) as char else c
  }

  /** `toUpperCase` restricted to ASCII letters. */
  function Upper(s: string): (u: string)
    ensures |u| == |s| && forall k :: 0 <= k < |s| ==> u[k] == ToUpper(s[k])
  {
    seq(|s|, k requires 0 <= k < |s| => ToUpper(s[k]))
  }
}

=== FILE: wrappers.dfy ===
/** Failure-carrying results shared by every module of the model.
    A Java method that either returns a value or throws is modelled as a
    function returning `Result`; a Java reference that may be null as `Option`. */
module Wrappers {

  datatype Option<+T> = None | Some(value: T)

  datatype Result<+T, +E> = Ok(value: T) | Err(error: E) {

    predicate IsFailure() {
      Err?
    }

    function PropagateFailure<U>(): Result<U, E>
      requires Err?
    {
      Err(error)
    }

    function Extract(): T
      requires Ok?
    {
      value
    }
  }
}
